=== FILE: README.md ===
# Motor-drive bench test: a Dafny model of its decision logic

The bench-test harness (`testarduino.py`) connects to an EtherCAT motor drive
through a motion-control SDK, checks the bus voltage, runs the drive's safe
torque off (STO), absolute-encoder, commutation and phasing diagnostics,
tests that the brake holds, characterizes velocity and current at several
set-points, and always disconnects. A small Arduino sketch
(`Arduino/displayresults.cpp`) shows the harness's messages on an e-paper
screen and drives a red and a green status LED.

This project models the decision logic around the SDK calls. Every SDK
reading (voltage, diagnostic results, velocity, current, encoder position)
is an input. Every SDK action (register write, brake and motor commands,
velocity commands, diagnostic runs, connect, disconnect) is recorded in a
`Command` trace. An exception raised by a step is an `Outcome` of `Fail`
carrying a `Fault`, and each step returns its trace together with its outcome.

Modules:

- `Basics`: `Option`, `Outcome`, `Abs`.
- `Drive`: the `Command` and `Fault` vocabulary, the `start_test` helper, and the register writes of a trace.
- `Checks`: the voltage gate, the severity rule of the diagnostics, commutation and phasing, and the brake test.
- `Centering`: counts to degrees, return to center and its position telemetry, and limit detection.
- `Velocity`: averages, tolerance bands, and `test_velocity`.
- `NoLoad`: `test_motor_no_load`.
- `Orchestrator`: `run_motor_tests`, both generically over any step results and concretely over a `Bench` of readings.
- `Display`: the message queue, the LED state machine, the line layout, and the buttons.

Modelling decisions:

- Python floats are Dafny `real`s and raw encoder positions are `int`s.
- Every timeout is modelled by the readings taken before it expires:
  - the position polls of `return_to_center`;
  - the limit polls of `test_motor_no_load`;
  - the samples of each velocity case.

  Every loop therefore runs at most once per reading and always terminates.
- `return_to_center` starts with an error of `float('inf')`. The model represents that as "no error computed yet". If no poll is made, the center is never reached.
- `displayresults.cpp` does not compile as written:
  - it compares against `MAX_MESSAGES`, which is never defined;
  - `setup` calls an undefined `displayMessage`.

  The queue capacity is therefore a parameter of `Display.Enqueue`. `Display.MaxResult` = 5 is the intended value, taken from `MAX_RESULT`.
- `test_brake` restores the current limit only when the brake held: a failure raises before the cleanup runs.
- `test_motor_no_load` restores the limit only when every velocity case passed: a failing case raises out of the step first.

## Model

| member | source | states |
|---|---|---|
| `Drive.WritesAreWriteCommands` | testarduino.py:125-127 | a (register, value) pair is among a trace's writes exactly when the trace holds a command writing that value to that register |
| `Drive.StartTest` | testarduino.py:115-124 | two commands: the brake released exactly when `release` is set (applied otherwise), then the motor enabled exactly when `activated` is set (disabled otherwise) |
| `Checks.ValidateVoltage` | testarduino.py:68-76 | passes exactly when the voltage is at least 46 V (46 V itself passes); the raised fault carries the measured value |
| `Checks.VoltageStep` | testarduino.py:61-65 | a missing reading raises "unable to read voltage" and the value is never validated; otherwise the step passes exactly when the reading is at least 46 V, and a reading below 46 V raises the invalid-voltage fault carrying that reading; issues no command |
| `Checks.VoltageGateMonotone` | testarduino.py:72-74 | a voltage that passes the gate keeps passing when it rises |
| `Checks.VoltageGateBoundary` | testarduino.py:72-74 | 46 V passes and every reading below 46 V fails with that reading |
| `Checks.SeverityVerdict` | testarduino.py:84-88 | a diagnostic passes exactly when its severity is 0; any other code raises the given fault |
| `Checks.SafetyChecker` | testarduino.py:79-90 | runs the STO test once; passes exactly when its severity is 0, otherwise raises the STO fault |
| `Checks.CheckEncoderConfiguration` | testarduino.py:92-112 | runs the encoder diagnostic once; passes exactly when severity is 0; a failure embeds the whole diagnostic result |
| `Checks.CommutationPrelude` | testarduino.py:136-141 | before the commutation test: phasing mode set to "no phasing", then the brake released and the motor disabled, then the commutation test; nothing is written to any register |
| `Checks.AngleOffsetWrite` | testarduino.py:145-149 | when an angle offset is suggested, a single command writing it to `COMMU_ANGLE_OFFSET`; otherwise no command at all |
| `Checks.CommutationAndPhasing` | testarduino.py:131-161 | the phasing check is issued if and only if the commutation test passed, and it comes last; a failed commutation test issues nothing after the opening four commands; a passing one is followed only by the suggested offset write, if any, and the phasing check; the step passes only if both severities are 0; commutation failure and phasing failure raise distinct faults |
| `Checks.CommutationWrites` | testarduino.py:143-151 | the only register written is `COMMU_ANGLE_OFFSET`, only after a passing commutation test that suggested it, with the suggested value |
| `Checks.BrakeSetup` | testarduino.py:168-178 | the brake test lowers the current limit to the protective value, applies the brake, enables the motor, selects velocity mode and commands the velocity unlatched and non-blocking; that limit is its only write |
| `Checks.BrakeCleanup` | testarduino.py:192-198 | after a held brake: a non-blocking stop, motor disabled, default brake configuration, then the original current limit written back, which is the cleanup's only write |
| `Checks.TestBrake` | testarduino.py:164-200 | passes exactly when the speed magnitude is below 0.5 and the current exceeds 0.9 × the protective limit; a failure raises with both measurements and issues nothing after the five opening commands; a pass follows them with the cleanup; the limit is lowered first, before the brake and motor commands |
| `Checks.BrakeRestoresLimitOnlyOnPass` | testarduino.py:186-198 | the original current limit is written back exactly when the brake held; after a failure the drive keeps the protective limit |
| `Checks.BrakeHoldMonotone` | testarduino.py:187 | less motion and more current never turn a held brake into a failure |
| `Checks.BrakeHeld` | testarduino.py:187 | the hold condition: speed magnitude below 0.5 and current above 90% of the protective limit |
| `Checks.BrakeHoldBoundary` | testarduino.py:187 | both bounds are strict: a speed of exactly ±0.5 fails whatever the current, a current of exactly 0.9 × the limit fails whatever the speed, and just inside both bounds (speed ±0.49, or current above 0.9 × the limit) the brake holds |
| `Centering.CountsToDegrees` | testarduino.py:203-206 | degrees × 2009497.6 = counts × 360; the sign of the angle is the sign of the count |
| `Centering.CountsToDegreesAdditive` | testarduino.py:205-206 | the conversion is additive in the counts |
| `Centering.TenRevolutions` | testarduino.py:205-206 | 20094976 counts (ten revolutions) are 3600 degrees |
| `Centering.CenterTarget` | testarduino.py:212-222 | "detect and return" targets 107 degrees from the current position, on the side opposite to positive travel (behind it when velocity > 0, ahead of it otherwise); "return" targets 0; any other mode has no target |
| `Centering.Corrective` | testarduino.py:230-232 | the corrective command has magnitude \|velocity\| and a sign opposite to the error; an error of 0 gives the positive direction |
| `Centering.CenterLoop` | testarduino.py:224-233 | at most one poll per reading; every error is position − target, and every command is the latched, non-blocking corrective command for that error; the loop continues only while the error exceeds 0.5; if it ends before the readings run out, its last error is within 0.5 |
| `Centering.ReturnToCenter` | testarduino.py:202-242 | an unknown mode returns false and issues no command; otherwise every poll is one of the correction loop's, measured against the mode's target, the commands are the corrections followed by a stop, and every command is a velocity command; reports success exactly when the final error is at most 0.5; reports failure only after every poll before the timeout was used |
| `Centering.CorrectionsPointToTarget` | testarduino.py:227-233 | each correction drives at \|velocity\|, negative when the position is past the target and positive otherwise |
| `Centering.FirstHitWins` | testarduino.py:224-239 | in "return" mode, a poll within 0.5 degrees of zero ends the loop at or before that poll, and the center is reported reached |
| `Centering.DetectLimit` | testarduino.py:243-256 | reports a limit exactly when the velocity is 0 and the current magnitude exceeds the comparison current; only then does it return to center in "detect and return" mode, and otherwise it commands nothing |
| `Centering.LimitReached` | testarduino.py:249 | the limit test: the axis stands still (velocity exactly 0) while the current magnitude exceeds the comparison current |
| `Centering.FirstLimit` | testarduino.py:342-350 | the wait loop stops at the first reading at which a limit is detected; if there is none, it runs until the readings, and so the time allowed, are used up |
| `Velocity.Average` | testarduino.py:294-295 | the average times the count is the total; the average of no samples is 0 |
| `Velocity.AverageWithin` | testarduino.py:294-295 | if every sample is strictly inside an interval, so is their average |
| `Velocity.MeasureAverages` | testarduino.py:284-295 | the sampling loop's running totals and count give the mean velocity and the mean current, or 0 without samples |
| `Velocity.ToleranceBand` | testarduino.py:297-300 | a band is centered on its target and reaches 10% of its reference value on either side |
| `Velocity.ToleranceBandDistance` | testarduino.py:297-311 | a value is strictly inside a band exactly when it is within 10% of the reference value of the band's center |
| `Velocity.ToleranceBandNonEmpty` | testarduino.py:297-300 | a band contains its own center exactly when its reference value is positive |
| `Velocity.CaseStart` | testarduino.py:263-274 | each case opens with brake release, motor enable, velocity mode, target latch and the case's velocity as a latched, non-blocking command; none of them writes a register |
| `Velocity.CaseFinish` | testarduino.py:313-315 | a passing case ends with a blocking stop; before it, a direction motor returns to center in "return" mode, and any other motor issues nothing |
| `Velocity.CaseVerdict` | testarduino.py:306-311 | a case passes exactly when both averages are strictly within their bands; velocity is judged first: a failure raises the velocity fault exactly when the velocity average is out of band, and the current fault otherwise, that is when the velocity was in band and the current was not |
| `Velocity.CaseFinishReturnsToCenter` | testarduino.py:313-315 | on a direction motor, everything before a passing case's final stop is the return to center in "return" mode, from the case's own position readings |
| `Velocity.RunCases` | testarduino.py:257-317 | whatever the judgement of a case, cases run in table order: a passing run started every case and every case passed; a failing run stops at the first failing case, which is the last one started, and raises its fault |
| `Velocity.RunCasesWritesNothing` | testarduino.py:257-317 | the case loop writes no register, whatever the judgement of each case |
| `Velocity.TestVelocity` | testarduino.py:257-317 | a passing run started every case; after a failure, the failing case is the last one started, every earlier case passed, and its fault is raised |
| `Velocity.RunCasesTrace` | testarduino.py:260-315 | the loop's commands are the opening and finish of every passed case, in table order, followed after a failure by the failing case's opening and nothing else |
| `Velocity.TestVelocityTrace` | testarduino.py:260-315 | `test_velocity` issues each passing case's opening commands and finish in table order; after a failure, the failing case's opening commands come last |
| `Velocity.TestVelocityPassesIffAllPass` | testarduino.py:257-317 | the characterization passes exactly when every case of the table passes |
| `Velocity.TestVelocityOpens` | testarduino.py:260-274 | a non-empty table starts with the first case's brake release, motor enable, velocity mode, latch and velocity command |
| `Velocity.TestVelocityWritesNothing` | testarduino.py:257-317 | the characterization writes no register |
| `Velocity.NoSamplesJudgedAsZero` | testarduino.py:294-311 | a case that sampled nothing is judged as if both averages were 0 |
| `Velocity.SamplesInsideBandsPass` | testarduino.py:284-311 | a case whose every sample is strictly inside both bands passes |
| `Velocity.VelocityBandExample` | testarduino.py:297-306 | target 10 with maximum 20 gives the band (8, 12): 10.5 passes, while 12 and 13 fail |
| `NoLoad.NoLoadSetup` | testarduino.py:326-339 | the step lowers the current limit to the protective value, releases the brake, enables the motor, selects velocity mode, latches the target and commands the velocity latched and non-blocking; that limit is its only write |
| `NoLoad.Approach` | testarduino.py:338-357 | only a direction motor searches for the limit; when a limit is found it returns to center in "detect and return" mode; the approach writes nothing |
| `NoLoad.NoLoadCleanup` | testarduino.py:363-366 | the original current limit is written back, then the brake applied and the motor disabled; that limit is the cleanup's only write |
| `NoLoad.NoLoadStep` | testarduino.py:321-367 | around any characterization run, the step ends as the run ends; its trace is the setup, the limit approach, the run's commands, and the cleanup only when the run passed |
| `NoLoad.NoLoadStepWrites` | testarduino.py:326-366 | when the run itself writes nothing, the step writes the protective limit first and the original limit back exactly when the run passed |
| `NoLoad.TestMotorNoLoad` | testarduino.py:321-367 | the step fails exactly when the velocity characterization fails, and with its fault; its trace is the setup, the limit approach, the characterization's commands, and the cleanup only when every case passed |
| `NoLoad.NoLoadRestoresLimitOnlyOnPass` | testarduino.py:326-366 | the protective limit is written first; the original limit is written back exactly when every velocity case passed |
| `Orchestrator.Plan` | testarduino.py:382-407 | connect, voltage and STO come first, in that order, and the final position report comes last |
| `Orchestrator.PlanIsFilteredOrder` | testarduino.py:382-407 | the plan is the fixed order of all eight steps with the disabled optional steps left out |
| `Orchestrator.PlanMembers` | testarduino.py:385-407 | encoder and phasing are planned exactly when phasing is requested, the brake and no-load tests exactly when their flags are set, the other steps always |
| `Orchestrator.PlanOrder` | testarduino.py:382-407 | the planned steps come in strictly increasing position of the fixed order, so each at most once, whichever optional steps are included |
| `Orchestrator.RunSteps` | testarduino.py:382-408 | the steps attempted are a prefix of the plan; a run without a caught fault attempted and passed every step; otherwise all attempted steps but the last passed and the caught fault is the last attempted step's; the commands are those of the attempted steps in order |
| `Orchestrator.RunStepsCompletesIffAllPass` | testarduino.py:382-408 | the attempt completes without a caught fault exactly when every planned step passes |
| `Orchestrator.StopsAtFailure` | testarduino.py:382-410 | in any plan, if the k-th step fails, at most k + 1 steps are attempted and a fault is caught |
| `Orchestrator.DisconnectCommands` | testarduino.py:370-373 | disconnection releases the brake, disables the motor, then disconnects |
| `Orchestrator.RunMotorTests` | testarduino.py:375-412 | for any step results, the run returns normally: the steps attempted are a prefix of the plan, a failing step's fault is caught after every earlier step passed, and the trace is the attempted steps' commands followed by the disconnection |
| `Orchestrator.RunCompletesIffAllPass` | testarduino.py:375-412 | a run ends without a caught fault exactly when every planned step passes |
| `Orchestrator.FailureSkipsLaterSteps` | testarduino.py:382-410 | if the k-th planned step fails, at most k + 1 steps are attempted and a fault is caught |
| `Orchestrator.RunDrive` | testarduino.py:375-412 | the concrete run of one drive: connecting is always attempted first, the trace opens with the connect command and always ends with the disconnection |
| `Orchestrator.ExecStep` | testarduino.py:383-406 | connecting issues the connect command alone and passes exactly when the SDK connects, failing with the connection fault otherwise; the voltage step is exactly the read-then-validate gate, which issues no command; STO and encoder run their diagnostics; the phasing step releases the brake and disables the motor before commutation and phasing; the brake test gets the protective limit to apply and the maximum current to restore, and so does the no-load test together with the motor type and velocity table; the position report always passes and commands nothing |
| `Orchestrator.LowVoltageStopsRun` | testarduino.py:385-412 | a connected drive reading below 46 V attempts only connect and voltage; the fault carries the reading; the only commands are connect then disconnect |
| `Orchestrator.UnreadableVoltageStopsRun` | testarduino.py:385-408 | a connected drive whose voltage cannot be read stops at the voltage step with the "unable to read" fault |
| `Orchestrator.PhasingAfterCommutation` | testarduino.py:391-394 | within the phasing block, the phasing check is issued if and only if the commutation test passed |
| `Display.Enqueue` | Arduino/displayresults.cpp:38-44 | pushing keeps the result a suffix of old queue + message; only the oldest element can be dropped, and only when the queue would exceed capacity; a queue within capacity stays within it |
| `Display.NewestStep` | Arduino/displayresults.cpp:38-44 | queueing the next message after the newest `capacity` messages gives the newest `capacity` messages of the longer stream |
| `Display.ReplayKeepsNewest` | Arduino/displayresults.cpp:38-44 | after any stream of messages from the initial state, the queue holds exactly the newest min(capacity, n) messages in arrival order |
| `Display.PrefixesExclusive` | Arduino/displayresults.cpp:29-36 | no message starts with two of "Error", "Succes" and "end of test:" |
| `Display.Signal` | Arduino/displayresults.cpp:29-36 | a message carries an LED signal exactly when it starts with "Error", "Succes" or "end of test:"; no signal lights both LEDs |
| `Display.Layout` | Arduino/displayresults.cpp:51-58 | one line per queued message, in queue order, all at x = 5; the first at y = 5 and each next one 5 pixels lower |
| `Display.DrawLines` | Arduino/displayresults.cpp:50-58 | draws one line per queued message, in queue order, at x = 5 and y = 5 + 5·i; the stored queue is only read |
| `Display.DisplayAndLight` | Arduino/displayresults.cpp:25-70 | "Error" sets red on and green off; "Succes" sets green on and red off; "end of test:" turns both off and shows a blank frame after the drawn one, without emptying the queue; any other message leaves the LEDs unchanged; the first frame is the layout of the updated queue |
| `Display.LedsOffWithoutSignal` | Arduino/displayresults.cpp:28-36 | if no message carried a signal, both LEDs are still off, as `setup` left them |
| `Display.LedsFollowLastSignal` | Arduino/displayresults.cpp:28-69 | after any stream, the LEDs show the signal of the most recent message that carried one |
| `Display.LedsExclusive` | Arduino/displayresults.cpp:29-36 | the red and green LEDs are never lit together |
| `Display.DisplayExamples` | Arduino/displayresults.cpp:33-69 | "Success…" lights green, "Error…" lights red, other text signals nothing; "end of test:" leaves the queue intact |
| `Display.GetButtons` | Arduino/displayresults.cpp:79-84 | execute reports "pressed" exactly when its pin is LOW, and "released" otherwise; mode reports "traction" exactly when its pin is LOW, and "direction" otherwise |
| `Display.ButtonsRoundTrip` | Arduino/displayresults.cpp:81-82 | the report determines the pin levels: parsing it gives back both levels read |

## Left out

- Logging and transport: `write_file`, `write_display`, console prints, the RPC client and its timeout fallback, and the RPC bindings and `RPC.update` of the sketch are I/O. The mismatched RPC names (`rpc_displaymessage` against `displaymessage`) belong to that transport too.
- Timing: `time.sleep`, the settle waits, the 2-second pre-sampling wait, `brake_test_duration`, the 10-second pause between drives and `delay(3000)` are not modelled. Timeouts appear only as the length of the readings given.
- SDK behaviour: connect arguments (interface name, dictionary path, alias), register reads and the meaning of the SDK's two boolean `set_velocity` arguments (named `latch` and `blocking` here) belong to the SDK. `Orchestrator.ExecStep` models only the failures the harness itself raises plus a failing connect. An SDK exception in the middle of any other step is covered only by the generic `Orchestrator.RunMotorTests`, which holds for any step results.
- The final position report is a step that issues no command and always passes: it only reads and logs.
- A failure inside `disconnect` itself is not modelled.
- Floating point: reals are exact, so rounding in the band bounds, the averages and the degree conversion is not modelled.
- NaN and infinite readings: a `real` cannot be NaN or infinite, so such SDK readings are not representable. The voltage gate is where the code behaves differently: a NaN voltage is not below 46, so `validate_value_voltage` lets it through and the tests go on, while `Checks.ValidateVoltage` admits only real voltages.
- `main`'s parameter tables and the environment variable `LOOP_INTERVAL` are configuration; the driver loop over several drives is not modelled.
- Display hardware: e-paper drawing beyond the line layout, fonts, the serial log, `setup`'s undefined `displayMessage("Ready...")`, and GPIO pin numbers are left out.
- Centering.ReturnToCenter: the initial `float('inf')` error is modelled as "no error computed yet" rather than as an infinite float.

=== FILE: basics.dfy ===
/** Shared vocabulary: optional values, pass/fail outcomes and the absolute value on reals. */
module Basics {

  /** A value that may be missing, as Python's `None`. */
  datatype Option<+T> = None | Some(value: T)

  /** How a checked step ends: it returns normally, or it raises carrying a fault. */
  datatype Outcome<+E> = Pass | Fail(fault: E)

  function Abs(x: real): (r: real)
    ensures r >= 0.0
    ensures r == x || r == -x
  {
    if x < 0.0 then -x else x
  }
}

=== FILE: centering.dfy ===
/**
 * Return-to-center and mechanical-limit detection of a "direction" axis:
 * raw encoder counts become degrees, a target is chosen by mode, and the
 * axis is driven towards it with corrective velocity commands until it is
 * within tolerance or the time allowed runs out.
 *
 * Time is abstracted: the position polls the loop gets to make before its
 * 15-second timeout expires are given as a sequence, so the loop runs at
 * most once per poll and always terminates.
 */
module Centering {
  import opened Basics
  import opened Drive

  /** Distance, in degrees, from a detected mechanical limit back to the center. */
  const LimitOffset: real := 107.0
  /** Largest remaining error, in degrees, at which the center counts as reached. */
  const CenterTolerance: real := 0.5
  /** The two modes `return_to_center` knows. */
  const DetectAndReturnMode: string := "detect and return"
  const ReturnMode: string := "return"

  /** Raw encoder position converted to degrees, at 2009497.6 counts per revolution. */
  function CountsToDegrees(raw: int): (deg: real)
    ensures deg * 2009497.6 == raw as real * 360.0
    ensures raw > 0 <==> deg > 0.0
    ensures raw == 0 <==> deg == 0.0
  {
    raw as real * 360.0 / 2009497.6
  }

  /** The conversion is additive: counts add as angles do. */
  lemma CountsToDegreesAdditive(a: int, b: int)
    ensures CountsToDegrees(a + b) == CountsToDegrees(a) + CountsToDegrees(b)
  {
  }

  /** Ten revolutions' worth of counts is 3600 degrees. */
  lemma TenRevolutions()
    ensures CountsToDegrees(20094976) == 3600.0
  {
  }

  /**
   * The angle `return_to_center` steers to: in "detect and return" mode, 107
   * degrees back from the current position, away from the direction of
   * travel; in "return" mode, absolute zero; no target for any other mode.
   */
  function CenterTarget(mode: string, position: real, velocity: real): (t: Option<real>)
    ensures t.Some? <==> mode == DetectAndReturnMode || mode == ReturnMode
    ensures mode == ReturnMode ==> t == Some(0.0)
    ensures mode == DetectAndReturnMode ==>
      t.Some? && Abs(t.value - position) == LimitOffset && (t.value < position <==> velocity > 0.0)
  {
    if mode == DetectAndReturnMode then
      var offset := if velocity > 0.0 then LimitOffset else -LimitOffset;
      Some(position - offset)
    else if mode == ReturnMode then
      Some(0.0)
    else
      None
  }

  /** The corrective velocity: full speed `|speed|`, against the sign of the error (towards the target). */
  function Corrective(error: real, speed: real): (v: real)
    ensures Abs(v) == Abs(speed)
    ensures error > 0.0 ==> v <= 0.0
    ensures error <= 0.0 ==> v >= 0.0
  {
    if error > 0.0 then -Abs(speed) else Abs(speed)
  }

  /** The latched, non-blocking corrective velocity command for an `error`. */
  predicate Steers(cmd: Command, error: real, speed: real)
  {
    cmd == SetVelocity(Corrective(error, speed), true, false)
  }

  /** What the correction loop did: the error seen at each poll and the command issued after it. */
  datatype LoopTrace = LoopTrace(errors: seq<real>, cmds: seq<Command>)

  /**
   * Poll `i` of the loop: its error is measured from the polled position, its
   * command steers towards the target, and the loop went on past it only
   * because the error was out of tolerance.
   */
  predicate Polled(r: LoopTrace, polls: seq<int>, target: real, speed: real, i: int)
    requires 0 <= i < |r.errors| == |r.cmds| <= |polls|
  {
    && r.errors[i] == CountsToDegrees(polls[i]) - target
    && Steers(r.cmds[i], r.errors[i], speed)
    && (i < |r.errors| - 1 ==> Abs(r.errors[i]) > CenterTolerance)
  }

  /**
   * The polling loop of `return_to_center`: each poll reads the position,
   * computes the error to `target` and issues a corrective command; the loop
   * goes on while the error exceeds the tolerance and polls remain. The error
   * starts out infinite, so the first poll is always made.
   */
  function CenterLoop(polls: seq<int>, target: real, speed: real): (r: LoopTrace)
    ensures |r.errors| == |r.cmds| <= |polls|
    ensures forall i :: 0 <= i < |r.errors| ==> Polled(r, polls, target, speed, i)
    ensures |r.errors| < |polls| ==> |r.errors| > 0 && Abs(r.errors[|r.errors| - 1]) <= CenterTolerance
  {
    if polls == [] then LoopTrace([], [])
    else
      var error := CountsToDegrees(polls[0]) - target;
      var cmd := SetVelocity(Corrective(error, speed), true, false);
      if Abs(error) <= CenterTolerance then LoopTrace([error], [cmd])
      else
        var rest := CenterLoop(polls[1..], target, speed);
        var r := LoopTrace([error] + rest.errors, [cmd] + rest.cmds);
        assert forall i :: 1 <= i < |r.errors| ==>
          Polled(rest, polls[1..], target, speed, i - 1) ==> Polled(r, polls, target, speed, i);
        r
  }

  /** The final command of `return_to_center`: stop, blocking. */
  const StopCommand: Command := SetVelocity(0.0, false, true)

  /** What `return_to_center` did: whether it reports the center reached, its correction loop, and all its commands. */
  datatype CenterRun = CenterRun(reached: bool, loop: LoopTrace, cmds: seq<Command>)

  /**
   * `return_to_center`: `start` is the position read on entry, `polls` the
   * positions read by the loop before the timeout.
   */
  function ReturnToCenter(velocity: real, mode: string, start: int, polls: seq<int>): (r: CenterRun)
    ensures var target := CenterTarget(mode, CountsToDegrees(start), velocity);
      && (target.None? ==> r == CenterRun(false, LoopTrace([], []), []))
      && (target.Some? ==>
        && |r.loop.errors| == |r.loop.cmds| <= |polls|
        && (forall i :: 0 <= i < |r.loop.errors| ==> Polled(r.loop, polls, target.value, velocity, i))
        && r.cmds == r.loop.cmds + [StopCommand]
        && (!r.reached ==> |r.loop.errors| == |polls|))
    ensures r.reached <==> |r.loop.errors| > 0 && Abs(r.loop.errors[|r.loop.errors| - 1]) <= CenterTolerance
    ensures forall i :: 0 <= i < |r.cmds| ==> r.cmds[i].SetVelocity?
  {
    match CenterTarget(mode, CountsToDegrees(start), velocity)
    case None => CenterRun(false, LoopTrace([], []), [])
    case Some(target) =>
      var loop := CenterLoop(polls, target, velocity);
      var reached := |loop.errors| > 0 && Abs(loop.errors[|loop.errors| - 1]) <= CenterTolerance;
      assert forall i :: 0 <= i < |loop.cmds| ==> Polled(loop, polls, target, velocity, i) ==> loop.cmds[i].SetVelocity?;
      CenterRun(reached, loop, loop.cmds + [StopCommand])
  }

  /**
   * Every command `return_to_center` issues before the final stop drives the
   * axis at full speed towards the target, and the final command is a stop.
   */
  lemma CorrectionsPointToTarget(velocity: real, mode: string, start: int, polls: seq<int>, i: int)
    requires mode == DetectAndReturnMode || mode == ReturnMode
    requires 0 <= i < |ReturnToCenter(velocity, mode, start, polls).loop.errors|
    ensures var r := ReturnToCenter(velocity, mode, start, polls);
      var target := CenterTarget(mode, CountsToDegrees(start), velocity).value;
      var position := CountsToDegrees(polls[i]);
      && r.cmds[|r.cmds| - 1] == StopCommand
      && r.cmds[i].SetVelocity? && Abs(r.cmds[i].velocity) == Abs(velocity)
      && (position > target ==> r.cmds[i].velocity <= 0.0)
      && (position <= target ==> r.cmds[i].velocity >= 0.0)
  {
    var r := ReturnToCenter(velocity, mode, start, polls);
    var target := CenterTarget(mode, CountsToDegrees(start), velocity).value;
    assert Polled(r.loop, polls, target, velocity, i);
    assert r.cmds[i] == r.loop.cmds[i];
  }

  /** In "return" mode, once a poll lands within tolerance of zero the loop stops there and reports the center reached. */
  lemma FirstHitWins(velocity: real, start: int, polls: seq<int>, k: int)
    requires 0 <= k < |polls| && Abs(CountsToDegrees(polls[k])) <= CenterTolerance
    ensures ReturnToCenter(velocity, ReturnMode, start, polls).reached
    ensures |ReturnToCenter(velocity, ReturnMode, start, polls).loop.errors| <= k + 1
  {
    var r := ReturnToCenter(velocity, ReturnMode, start, polls);
    if k < |r.loop.errors| {
      assert Polled(r.loop, polls, 0.0, velocity, k);
    }
  }

  /** Telemetry of one return to center: the position on entry and the positions polled. */
  datatype CenterPolls = CenterPolls(start: int, polls: seq<int>)

  /** `detect_limit`'s test: the axis stands still while drawing more than the comparison current. */
  predicate LimitReached(velocity: real, current: real, currentCompare: real)
  {
    velocity == 0.0 && Abs(current) > currentCompare
  }

  /** One telemetry reading: actual velocity and quadrature current. */
  datatype Sample = Sample(velocity: real, current: real)

  /** What `detect_limit` reported and the commands it issued. */
  datatype LimitCheck = LimitCheck(detected: bool, cmds: seq<Command>)

  /**
   * `detect_limit`: when the limit is reached, return to center in "detect and
   * return" mode and report true; otherwise report false and command nothing.
   */
  function DetectLimit(reading: Sample, velocity: real, currentCompare: real, center: CenterPolls): (r: LimitCheck)
    ensures r.detected <==> reading.velocity == 0.0 && Abs(reading.current) > currentCompare
    ensures !r.detected ==> r.cmds == []
    ensures r.detected ==> r.cmds == ReturnToCenter(velocity, DetectAndReturnMode, center.start, center.polls).cmds
    ensures r.detected ==> |r.cmds| >= 1 && r.cmds[|r.cmds| - 1] == StopCommand
  {
    if LimitReached(reading.velocity, reading.current, currentCompare)
    then LimitCheck(true, ReturnToCenter(velocity, DetectAndReturnMode, center.start, center.polls).cmds)
    else LimitCheck(false, [])
  }

  /**
   * The index of the first reading at which `detect_limit` reports the limit,
   * if any: the no-load wait loop stops there.
   */
  function FirstLimit(readings: seq<Sample>, currentCompare: real): (k: Option<nat>)
    ensures k.Some? ==> (
      && k.value < |readings|
      && LimitReached(readings[k.value].velocity, readings[k.value].current, currentCompare)
      && forall j :: 0 <= j < k.value ==> !LimitReached(readings[j].velocity, readings[j].current, currentCompare))
    ensures k.None? ==> forall j :: 0 <= j < |readings| ==> !LimitReached(readings[j].velocity, readings[j].current, currentCompare)
  {
    if readings == [] then None
    else if LimitReached(readings[0].velocity, readings[0].current, currentCompare) then Some(0)
    else
      match FirstLimit(readings[1..], currentCompare)
      case None => None
      case Some(k) => Some(k + 1)
  }
}

=== FILE: checks.dfy ===
/**
 * The pass/fail rules of the bench test's gate steps: the bus-voltage gate,
 * the severity rule of the SDK diagnostics (safe torque off, absolute
 * encoder, commutation and phasing) and the brake-holding test.
 */
module Checks {
  import opened Basics
  import opened Drive

  /** Lowest bus voltage, in volts, at which testing may begin. */
  const MinBusVoltage: real := 46.0

  /** `validate_value_voltage`: a reading below the minimum bus voltage raises. */
  function ValidateVoltage(voltage: real): (r: Outcome<Fault>)
    ensures r.Pass? <==> voltage >= MinBusVoltage
    ensures r.Fail? ==> r.fault == InvalidVoltage(voltage)
  {
    if voltage < MinBusVoltage then Fail(InvalidVoltage(voltage)) else Pass
  }

  /**
   * `read_drive_voltage` followed by `validate_value_voltage`: a missing
   * reading raises before the value is validated.
   */
  function VoltageStep(reading: Option<real>): (r: StepResult)
    ensures r.cmds == []
    ensures reading.None? ==> r.outcome == Fail(VoltageUnreadable)
    ensures r.outcome.Pass? <==> reading.Some? && reading.value >= MinBusVoltage
    ensures r.outcome.Fail? && r.outcome.fault.InvalidVoltage? ==> reading == Some(r.outcome.fault.measured)
    ensures reading.Some? && reading.value < MinBusVoltage ==> r.outcome == Fail(InvalidVoltage(reading.value))
  {
    match reading
    case None => StepResult([], Fail(VoltageUnreadable))
    case Some(v) => StepResult([], ValidateVoltage(v))
  }

  /** A voltage that passes the gate keeps passing when it rises. */
  lemma VoltageGateMonotone(v: real, w: real)
    requires ValidateVoltage(v).Pass? && v <= w
    ensures ValidateVoltage(w).Pass?
  {
  }

  /** The gate is closed exactly below 46 V: 46 V itself passes. */
  lemma VoltageGateBoundary(v: real)
    ensures ValidateVoltage(MinBusVoltage) == Pass
    ensures v < 46.0 ==> ValidateVoltage(v) == Fail(InvalidVoltage(v))
  {
  }

  /** Severity rule shared by every SDK diagnostic: 0 passes, any other code raises `fault`. */
  function SeverityVerdict(severity: int, fault: Fault): (r: Outcome<Fault>)
    ensures r.Pass? <==> severity == 0
    ensures r.Fail? ==> r.fault == fault
  {
    if severity == 0 then Pass else Fail(fault)
  }

  /** `safety_checker`: runs the safe-torque-off test once and judges it by severity. */
  function SafetyChecker(sto: Diagnostic): (r: StepResult)
    ensures r.cmds == [StoTest]
    ensures r.outcome.Pass? <==> sto.severity == 0
    ensures r.outcome.Fail? ==> r.outcome.fault == StoFailed
  {
    StepResult([StoTest], SeverityVerdict(sto.severity, StoFailed))
  }

  /**
   * `check_encoder_configuration`: runs the absolute-encoder diagnostic without
   * applying its suggestions; a failure carries the whole diagnostic.
   */
  function CheckEncoderConfiguration(encoder: Diagnostic): (r: StepResult)
    ensures r.cmds == [EncoderTest]
    ensures r.outcome.Pass? <==> encoder.severity == 0
    ensures r.outcome.Fail? ==> r.outcome.fault == EncoderFailed(encoder)
  {
    StepResult([EncoderTest], SeverityVerdict(encoder.severity, EncoderFailed(encoder)))
  }

  /** The commands that open `perform_commutation_and_check_phasing`: phasing off, brake released, motor disabled, commutation test. */
  function CommutationPrelude(): (r: seq<Command>)
    ensures r == [SetPhasingMode(NoPhasing), ReleaseBrake, MotorDisable, CommutationTest]
    ensures Writes(r) == []
  {
    var r := [SetPhasingMode(NoPhasing)] + StartTest(false, true) + [CommutationTest];
    NoWriteCommands(r);
    r
  }

  /** The angle-offset write the commutation result asks for, if any. */
  function AngleOffsetWrite(commutation: Diagnostic): (r: seq<Command>)
    ensures Writes(r) ==
      if AngleOffsetRegister in commutation.suggested
      then [(AngleOffsetRegister, commutation.suggested[AngleOffsetRegister])]
      else []
    ensures PhasingCheck !in r
    ensures r == if AngleOffsetRegister in commutation.suggested
                 then [WriteRegister(AngleOffsetRegister, commutation.suggested[AngleOffsetRegister])]
                 else []
  {
    if AngleOffsetRegister in commutation.suggested
    then
      var w := [WriteRegister(AngleOffsetRegister, commutation.suggested[AngleOffsetRegister])];
      assert w[..0] == [];
      w
    else []
  }

  /**
   * `perform_commutation_and_check_phasing`: with phasing off, the motor
   * disabled and the brake released, run the commutation test; only if it
   * passes, write back a suggested angle offset and run the phasing check.
   */
  function CommutationAndPhasing(commutation: Diagnostic, phasing: Diagnostic): (r: StepResult)
    ensures |r.cmds| >= 4 && r.cmds[..4] == CommutationPrelude()
    ensures PhasingCheck in r.cmds <==> commutation.severity == 0
    ensures commutation.severity == 0 ==> r.cmds[|r.cmds| - 1] == PhasingCheck
    ensures r.outcome.Pass? <==> commutation.severity == 0 && phasing.severity == 0
    ensures commutation.severity != 0 ==> r.outcome == Fail(CommutationFailed)
    ensures commutation.severity == 0 && phasing.severity != 0 ==> r.outcome == Fail(PhasingFailed)
    ensures commutation.severity != 0 ==> r.cmds == CommutationPrelude()
    ensures commutation.severity == 0 ==> r.cmds == CommutationPrelude() + AngleOffsetWrite(commutation) + [PhasingCheck]
  {
    var prelude := CommutationPrelude();
    if commutation.severity == 0 then
      StepResult(prelude + AngleOffsetWrite(commutation) + [PhasingCheck],
                 SeverityVerdict(phasing.severity, PhasingFailed))
    else
      StepResult(prelude, Fail(CommutationFailed))
  }

  /**
   * The only register the commutation step writes is the angle offset, and
   * only when the commutation test passed and suggested one.
   */
  lemma CommutationWrites(commutation: Diagnostic, phasing: Diagnostic)
    ensures Writes(CommutationAndPhasing(commutation, phasing).cmds) ==
      if commutation.severity == 0 && AngleOffsetRegister in commutation.suggested
      then [(AngleOffsetRegister, commutation.suggested[AngleOffsetRegister])]
      else []
  {
    var r := CommutationAndPhasing(commutation, phasing);
    if commutation.severity == 0 {
      var a := CommutationPrelude() + AngleOffsetWrite(commutation);
      assert r.cmds == a + [PhasingCheck];
      WritesAppend(CommutationPrelude(), AngleOffsetWrite(commutation));
      WritesThenCheck(a);
    }
  }

  /** Appending the phasing check to a trace adds no write. */
  lemma WritesThenCheck(a: seq<Command>)
    ensures Writes(a + [PhasingCheck]) == Writes(a)
  {
    assert (a + [PhasingCheck])[..|a|] == a;
  }

  /**
   * The hold condition of `test_brake`: the shaft stayed still (speed below
   * 0.5) while the motor pushed against the brake (current above 90% of the
   * protective limit).
   */
  predicate BrakeHeld(velocity: real, current: real, protectiveLimit: real)
  {
    Abs(velocity) < 0.5 && current > 0.9 * protectiveLimit
  }

  /** The commands `test_brake` issues before it reads the drive back. */
  function BrakeSetup(register: string, protectiveLimit: real, velocity: real): (r: seq<Command>)
    ensures Writes(r) == [(register, protectiveLimit)]
    ensures r == [WriteRegister(register, protectiveLimit), EnableBrake, MotorEnable,
                  SetOperationMode(VelocityMode), SetVelocity(velocity, false, false)]
  {
    var head := [WriteRegister(register, protectiveLimit)];
    var tail := StartTest(true, false) + [SetOperationMode(VelocityMode), SetVelocity(velocity, false, false)];
    NoWriteCommands(tail);
    WritesAppend(head, tail);
    assert head[..0] == [];
    head + tail
  }

  /** The commands `test_brake` issues once the brake held: stop, disable, default brake, restore the limit. */
  function BrakeCleanup(register: string, currentMax: real): (r: seq<Command>)
    ensures Writes(r) == [(register, currentMax)]
    ensures r == [SetVelocity(0.0, false, false), MotorDisable, DefaultBrake, WriteRegister(register, currentMax)]
  {
    var stop := [SetVelocity(0.0, false, false), MotorDisable, DefaultBrake];
    var restore := [WriteRegister(register, currentMax)];
    NoWriteCommands(stop);
    WritesAppend(stop, restore);
    assert restore[..0] == [];
    stop + restore
  }

  /**
   * `test_brake`: lower the current limit to `protectiveLimit`, apply the brake,
   * enable the motor and command `velocity`; the readings taken after the wait
   * decide. Only when the brake held is the motor stopped and the original
   * limit `currentMax` restored: a failure raises straight out of the step.
   */
  function TestBrake(register: string, protectiveLimit: real, velocity: real, currentMax: real,
                     measuredVelocity: real, measuredCurrent: real): (r: StepResult)
    ensures r.outcome.Pass? <==> Abs(measuredVelocity) < 0.5 && measuredCurrent > 0.9 * protectiveLimit
    ensures r.outcome.Fail? ==> r.outcome.fault == BrakeMoved(measuredVelocity, measuredCurrent)
    ensures |r.cmds| >= 5 && r.cmds[..5] == [WriteRegister(register, protectiveLimit), EnableBrake, MotorEnable,
                            SetOperationMode(VelocityMode), SetVelocity(velocity, false, false)]
    ensures r.outcome.Fail? ==> |r.cmds| == 5
    ensures r.outcome.Pass? ==> r.cmds[5..] == BrakeCleanup(register, currentMax)
  {
    var setup := BrakeSetup(register, protectiveLimit, velocity);
    if BrakeHeld(measuredVelocity, measuredCurrent, protectiveLimit) then
      StepResult(setup + BrakeCleanup(register, currentMax), Pass)
    else
      StepResult(setup, Fail(BrakeMoved(measuredVelocity, measuredCurrent)))
  }

  /**
   * The current limit is lowered to the protective value first and the
   * original limit is written back exactly when the brake held; after a
   * failure the drive keeps the protective limit.
   */
  lemma BrakeRestoresLimitOnlyOnPass(register: string, protectiveLimit: real, velocity: real, currentMax: real,
                                     measuredVelocity: real, measuredCurrent: real)
    ensures var r := TestBrake(register, protectiveLimit, velocity, currentMax, measuredVelocity, measuredCurrent);
      Writes(r.cmds) == [(register, protectiveLimit)] + (if r.outcome.Pass? then [(register, currentMax)] else [])
  {
    if BrakeHeld(measuredVelocity, measuredCurrent, protectiveLimit) {
      WritesAppend(BrakeSetup(register, protectiveLimit, velocity), BrakeCleanup(register, currentMax));
    }
  }

  /** Stronger evidence of holding (more current, less motion) never turns a held brake into a failure. */
  lemma BrakeHoldMonotone(v: real, c: real, v': real, c': real, limit: real)
    requires BrakeHeld(v, c, limit)
    requires Abs(v') <= Abs(v) && c' >= c
    ensures BrakeHeld(v', c', limit)
  {
  }

  /**
   * Both bounds of the hold condition are strict: a speed of exactly ±0.5
   * fails whatever the current, and so does a current of exactly 90% of the
   * limit whatever the speed; just inside both bounds the brake holds.
   */
  lemma BrakeHoldBoundary(velocity: real, current: real, limit: real)
    ensures !BrakeHeld(0.5, current, limit) && !BrakeHeld(-0.5, current, limit)
    ensures !BrakeHeld(velocity, 0.9 * limit, limit)
    ensures current > 0.9 * limit ==> BrakeHeld(0.49, current, limit) && BrakeHeld(-0.49, current, limit)
    ensures Abs(velocity) < 0.5 ==> BrakeHeld(velocity, 0.9 * limit + 0.001, limit)
  {
  }
}

=== FILE: display.dfy ===
/**
 * The result display of the bench: `displayAndLight` keeps a bounded FIFO of
 * the most recent messages, draws it one message per line, and drives a red
 * and a green LED from the message prefix; `rpc_get_buttons` reports the two
 * push buttons as strings.
 */
module Display {
  import opened Basics

  /** Intended capacity of the message queue. */
  const MaxResult: nat := 5
  const ErrorPrefix: string := "Error"
  /** Matches "Success" as well as the misspelt "Succes". */
  const SuccessPrefix: string := "Succes"
  const EndOfTestPrefix: string := "end of test:"
  /** Left margin, first line and line pitch of the drawn messages, in pixels. */
  const Margin: int := 5
  const LinePitch: int := 5

  /** The two status LEDs: true is lit. */
  datatype Leds = Leds(red: bool, green: bool)

  /** The display's stored state: the message queue, oldest first, and the LEDs. */
  datatype Panel = Panel(queue: seq<string>, leds: Leds)

  /** State after `setup`: nothing queued, both LEDs off. */
  const Initial: Panel := Panel([], Leds(false, false))

  /** One message drawn on the e-paper at (x, y). */
  datatype Line = Line(x: int, y: int, text: string)

  /**
   * Push `message` and, if the queue then holds more than `capacity`
   * messages, pop the oldest one.
   */
  function Enqueue(queue: seq<string>, message: string, capacity: nat): (q: seq<string>)
    ensures |queue| <= |q| <= |queue| + 1
    ensures |q| == |queue| <==> |queue| + 1 > capacity
    ensures q == (queue + [message])[|queue| + 1 - |q|..]
    ensures |queue| <= capacity ==> |q| <= capacity
  {
    var pushed := queue + [message];
    if |pushed| > capacity then pushed[1..] else pushed
  }

  function Min(a: nat, b: nat): nat
  {
    if a < b then a else b
  }

  /** No message starts with two of the three signalling prefixes. */
  lemma PrefixesExclusive(message: string)
    ensures !(ErrorPrefix <= message && SuccessPrefix <= message)
    ensures !(ErrorPrefix <= message && EndOfTestPrefix <= message)
    ensures !(SuccessPrefix <= message && EndOfTestPrefix <= message)
  {
    if ErrorPrefix <= message { assert message[0] == 'E'; }
    if SuccessPrefix <= message { assert message[0] == 'S'; }
    if EndOfTestPrefix <= message { assert message[0] == 'e'; }
  }

  /** The LED signal a message carries, if any. */
  function Signal(message: string): (s: Option<Leds>)
    ensures s.Some? <==> ErrorPrefix <= message || SuccessPrefix <= message || EndOfTestPrefix <= message
    ensures s.Some? ==> !(s.value.red && s.value.green)
  {
    if EndOfTestPrefix <= message then Some(Leds(false, false))
    else if ErrorPrefix <= message then Some(Leds(true, false))
    else if SuccessPrefix <= message then Some(Leds(false, true))
    else None
  }

  /** The lines drawn for a queue: one per message, in queue order, 5 pixels apart. */
  function Layout(queue: seq<string>): (r: seq<Line>)
    ensures |r| == |queue|
    ensures forall i :: 0 <= i < |r| ==> r[i].x == Margin && r[i].text == queue[i]
    ensures |r| > 0 ==> r[0].y == Margin
    ensures forall i :: 0 < i < |r| ==> r[i].y == r[i - 1].y + LinePitch
  {
    seq(|queue|, i requires 0 <= i < |queue| => Line(Margin, Margin + LinePitch * i, queue[i]))
  }

  /**
   * The drawing loop of `displayAndLight`: pop a copy of the queue front to
   * back, drawing each message and moving down one line.
   */
  method DrawLines(queue: seq<string>) returns (lines: seq<Line>)
    ensures |lines| == |queue|
    ensures forall i :: 0 <= i < |lines| ==> lines[i] == Line(Margin, Margin + LinePitch * i, queue[i])
    ensures lines == Layout(queue)
  {
    lines := [];
    var y := Margin;
    var temp := queue;
    while temp != []
      invariant |temp| <= |queue| && temp == queue[|queue| - |temp|..]
      invariant |lines| == |queue| - |temp|
      invariant y == Margin + LinePitch * |lines|
      invariant forall i :: 0 <= i < |lines| ==> lines[i] == Line(Margin, Margin + LinePitch * i, queue[i])
      decreases |temp|
    {
      var message := temp[0];
      temp := temp[1..];
      lines := lines + [Line(Margin, y, message)];
      y := y + LinePitch;
    }
  }

  /** What one call shows: the state afterwards and the frames pushed to the e-paper, in order. */
  datatype Shown = Shown(panel: Panel, frames: seq<seq<Line>>)

  /**
   * `displayAndLight`: set the LEDs from the prefix, queue the message, draw
   * the queue; a message starting "end of test:" then blanks the screen and
   * turns both LEDs off, leaving the queue as it is.
   */
  function DisplayAndLight(panel: Panel, message: string, capacity: nat): (r: Shown)
    ensures r.panel.queue == Enqueue(panel.queue, message, capacity)
    ensures ErrorPrefix <= message ==> r.panel.leds == Leds(true, false)
    ensures SuccessPrefix <= message ==> r.panel.leds == Leds(false, true)
    ensures EndOfTestPrefix <= message ==> r.panel.leds == Leds(false, false)
    ensures Signal(message).None? ==> r.panel.leds == panel.leds
    ensures r.panel.leds == if Signal(message).Some? then Signal(message).value else panel.leds
    ensures |r.frames| >= 1 && r.frames[0] == Layout(r.panel.queue)
    ensures |r.frames| == 2 <==> EndOfTestPrefix <= message
    ensures |r.frames| == 2 ==> r.frames[1] == []
  {
    PrefixesExclusive(message);
    var leds :=
      if ErrorPrefix <= message then Leds(true, false)
      else if SuccessPrefix <= message then Leds(false, true)
      else panel.leds;
    var queue := Enqueue(panel.queue, message, capacity);
    var frame := Layout(queue);
    if EndOfTestPrefix <= message
    then Shown(Panel(queue, Leds(false, false)), [frame, []])
    else Shown(Panel(queue, leds), [frame])
  }

  /** The panel after a stream of messages, starting from `setup`'s state. */
  function Replay(messages: seq<string>, capacity: nat): Panel
  {
    if messages == [] then Initial
    else DisplayAndLight(Replay(messages[..|messages| - 1], capacity), messages[|messages| - 1], capacity).panel
  }

  /** With no signalling message in the stream, both LEDs stay off. */
  lemma {:induction false} LedsOffWithoutSignal(messages: seq<string>, capacity: nat)
    requires forall i :: 0 <= i < |messages| ==> Signal(messages[i]).None?
    ensures Replay(messages, capacity).leds == Leds(false, false)
    decreases |messages|
  {
    if messages != [] {
      LedsOffWithoutSignal(messages[..|messages| - 1], capacity);
    }
  }

  /**
   * The LEDs show the signal of the most recent message that carries one:
   * later messages without a signal leave them as they are.
   */
  lemma {:induction false} LedsFollowLastSignal(messages: seq<string>, capacity: nat, k: nat)
    requires k < |messages| && Signal(messages[k]).Some?
    requires forall j :: k < j < |messages| ==> Signal(messages[j]).None?
    ensures Replay(messages, capacity).leds == Signal(messages[k]).value
    decreases |messages|
  {
    if k < |messages| - 1 {
      var init := messages[..|messages| - 1];
      assert init[k] == messages[k];
      LedsFollowLastSignal(init, capacity, k);
    }
  }

  /** The red and the green LED are never lit together. */
  lemma {:induction false} LedsExclusive(messages: seq<string>, capacity: nat)
    ensures !(Replay(messages, capacity).leds.red && Replay(messages, capacity).leds.green)
    decreases |messages|
  {
    if messages != [] {
      LedsExclusive(messages[..|messages| - 1], capacity);
    }
  }

  /** A suffix splits into its part before the last element and the last element. */
  lemma SliceSnoc<T>(s: seq<T>, a: int)
    requires 0 <= a < |s|
    ensures s[a..] == s[a..|s| - 1] + [s[|s| - 1]]
  {
  }

  /** One step of a replay, as far as the queue is concerned. */
  lemma ReplayQueueStep(messages: seq<string>, capacity: nat)
    requires messages != []
    ensures Replay(messages, capacity).queue ==
      Enqueue(Replay(messages[..|messages| - 1], capacity).queue, messages[|messages| - 1], capacity)
  {
  }

  /** The newest `capacity` messages of a stream (all of them if fewer), oldest first. */
  function Newest(messages: seq<string>, capacity: nat): seq<string>
  {
    messages[|messages| - Min(capacity, |messages|)..]
  }

  /** Enqueueing the next message into the newest ones gives the newest ones of the longer stream. */
  lemma NewestStep(messages: seq<string>, capacity: nat)
    requires messages != []
    ensures Enqueue(Newest(messages[..|messages| - 1], capacity), messages[|messages| - 1], capacity)
            == Newest(messages, capacity)
  {
    var n := |messages|;
    var from := n - 1 - Min(capacity, n - 1);
    var q := Newest(messages[..n - 1], capacity);
    assert q == messages[from..n - 1];
    SliceSnoc(messages, from);
    var pushed := q + [messages[n - 1]];
    assert pushed == messages[from..];
    if |pushed| > capacity {
      assert Min(capacity, n) == capacity && from + 1 == n - capacity;
      assert Enqueue(q, messages[n - 1], capacity) == messages[n - capacity..];
    } else {
      assert Min(capacity, n) == n && from == 0;
    }
  }

  /** The replayed queue is the newest `capacity` messages, oldest first. */
  lemma {:induction false} ReplayKeepsNewest(messages: seq<string>, capacity: nat)
    ensures Replay(messages, capacity).queue == Newest(messages, capacity)
    decreases |messages|
  {
    if messages != [] {
      ReplayKeepsNewest(messages[..|messages| - 1], capacity);
      ReplayQueueStep(messages, capacity);
      NewestStep(messages, capacity);
    }
  }

  /** "Success" carries the success signal, and an "end of test:" message does not empty the queue. */
  lemma DisplayExamples()
    ensures Signal("Success: STO active") == Some(Leds(false, true))
    ensures Signal("Error : STO test failed") == Some(Leds(true, false))
    ensures Signal("Test ended") == None
    ensures Replay(["Success", "end of test: servo1"], MaxResult).queue == ["Success", "end of test: servo1"]
  {
    assert SuccessPrefix <= "Success: STO active";
    assert ErrorPrefix <= "Error : STO test failed";
    ReplayKeepsNewest(["Success", "end of test: servo1"], MaxResult);
  }

  /** Level of a digital input pin. */
  datatype PinLevel = Low | High

  /** The report `rpc_get_buttons` returns. */
  datatype Buttons = Buttons(execute: string, mode: string)

  /** `rpc_get_buttons`: a pressed button pulls its pin low. */
  function GetButtons(executePin: PinLevel, modePin: PinLevel): (b: Buttons)
    ensures b.execute in {"pressed", "released"} && (b.execute == "pressed" <==> executePin == Low)
    ensures b.mode in {"traction", "direction"} && (b.mode == "traction" <==> modePin == Low)
  {
    Buttons(if executePin == Low then "pressed" else "released",
            if modePin == Low then "traction" else "direction")
  }

  /** Reading a report back into pin levels; only the four strings above are understood. */
  function ParseButtons(b: Buttons): Option<(PinLevel, PinLevel)>
  {
    if b.execute !in {"pressed", "released"} || b.mode !in {"traction", "direction"} then None
    else Some((if b.execute == "pressed" then Low else High, if b.mode == "traction" then Low else High))
  }

  /** The report determines the pin levels: parsing it gives back exactly the levels read. */
  lemma ButtonsRoundTrip(executePin: PinLevel, modePin: PinLevel)
    ensures ParseButtons(GetButtons(executePin, modePin)) == Some((executePin, modePin))
  {
  }
}

=== FILE: drive.dfy ===
/**
 * The drive as the bench-test harness sees it through the motion-control SDK:
 * the commands it issues, the diagnostics it receives back and the faults a
 * step can raise. Readings (voltage, velocity, current, position) are inputs
 * of the operations that use them and never appear in a command trace.
 */
module Drive {
  import opened Basics

  /** Operation mode 3 of the drive: velocity control. */
  const VelocityMode: int := 3
  /** Phasing mode 2 of the drive: no phasing. */
  const NoPhasing: int := 2
  /** The register the commutation test may suggest a new value for. */
  const AngleOffsetRegister: string := "COMMU_ANGLE_OFFSET"

  /** What a built-in SDK diagnostic reports: a severity code (0 is a pass) and suggested register values. */
  datatype Diagnostic = Diagnostic(severity: int, suggested: map<string, real>)

  /** An action the harness asks of the drive, in the order it is issued. */
  datatype Command =
    | Connect(slaveId: int)
    | WriteRegister(register: string, value: real)
    | ReleaseBrake
    | EnableBrake
    | DefaultBrake
    | MotorEnable
    | MotorDisable
    | SetPhasingMode(phasing: int)
    | SetOperationMode(operation: int)
    | TargetLatch
    | SetVelocity(velocity: real, latch: bool, blocking: bool)
    | StoTest
    | EncoderTest
    | CommutationTest
    | PhasingCheck
    | Disconnect

  /** Every way a step of the bench test can fail (each is an exception in the harness). */
  datatype Fault =
    | ConnectFailed
    | VoltageUnreadable
    | InvalidVoltage(measured: real)
    | StoFailed
    | EncoderFailed(details: Diagnostic)
    | CommutationFailed
    | PhasingFailed
    | BrakeMoved(velocity: real, current: real)
    | VelocityOutOfBand(testName: string)
    | CurrentOutOfBand(testName: string)

  /** What one step did to the drive and how it ended. */
  datatype StepResult = StepResult(cmds: seq<Command>, outcome: Outcome<Fault>)

  /**
   * The harness's `start_test` helper: first the brake (released or applied),
   * then the motor (enabled or disabled).
   */
  function StartTest(activated: bool, release: bool): (r: seq<Command>)
    ensures |r| == 2
    ensures r[0] in {ReleaseBrake, EnableBrake} && (r[0] == ReleaseBrake <==> release)
    ensures r[1] in {MotorEnable, MotorDisable} && (r[1] == MotorEnable <==> activated)
  {
    [if release then ReleaseBrake else EnableBrake, if activated then MotorEnable else MotorDisable]
  }

  /** The register writes of a command trace, in order. */
  function Writes(cmds: seq<Command>): (r: seq<(string, real)>)
    ensures |r| <= |cmds|
  {
    if cmds == [] then []
    else
      var last := cmds[|cmds| - 1];
      Writes(cmds[..|cmds| - 1]) + (if last.WriteRegister? then [(last.register, last.value)] else [])
  }

  /** Writes distribute over concatenation of traces. */
  lemma {:induction false} WritesAppend(a: seq<Command>, b: seq<Command>)
    ensures Writes(a + b) == Writes(a) + Writes(b)
    decreases |b|
  {
    if b == [] {
      assert a + b == a;
    } else {
      var b' := b[..|b| - 1];
      assert (a + b)[..|a + b| - 1] == a + b';
      WritesAppend(a, b');
    }
  }

  /** A pair is among the writes of a trace exactly when the trace holds a command writing that value to that register. */
  lemma {:induction false} WritesAreWriteCommands(cmds: seq<Command>)
    ensures forall w :: w in Writes(cmds) <==> WriteRegister(w.0, w.1) in cmds
    decreases |cmds|
  {
    if cmds != [] {
      var init := cmds[..|cmds| - 1];
      WritesAreWriteCommands(init);
      assert cmds == init + [cmds[|cmds| - 1]];
    }
  }

  /** A trace with no WriteRegister command writes nothing. */
  lemma {:induction false} NoWriteCommands(cmds: seq<Command>)
    requires forall i :: 0 <= i < |cmds| ==> !cmds[i].WriteRegister?
    ensures Writes(cmds) == []
    decreases |cmds|
  {
    if cmds != [] {
      NoWriteCommands(cmds[..|cmds| - 1]);
    }
  }
}

=== FILE: noload.dfy ===
/**
 * `test_motor_no_load`: under a protective current limit, spin the motor
 * without load (on a direction motor, until the mechanical limit is found
 * and the axis returned to center), run the velocity characterization, then
 * restore the limit and disable the drive.
 */
module NoLoad {
  import opened Basics
  import opened Drive
  import opened Centering
  import opened Velocity

  /** The parameters of one no-load run. */
  datatype NoLoadConfig = NoLoadConfig(
    register: string,        // current-limit register
    protectiveLimit: real,   // limit applied for the duration of the test
    currentMax: real,        // limit restored afterwards
    velocity: real,          // velocity of the approach to the limit
    currentCompare: real,    // current above which a standing axis is at its limit
    motorType: string,
    limits: Limits)

  /** The commands that open the step: protective limit, brake released, motor enabled, velocity mode, latch, spin. */
  function NoLoadSetup(cfg: NoLoadConfig): (r: seq<Command>)
    ensures Writes(r) == [(cfg.register, cfg.protectiveLimit)]
    ensures r == [WriteRegister(cfg.register, cfg.protectiveLimit), ReleaseBrake, MotorEnable,
                  SetOperationMode(VelocityMode), TargetLatch, SetVelocity(cfg.velocity, true, false)]
  {
    var head := [WriteRegister(cfg.register, cfg.protectiveLimit)];
    var tail := StartTest(true, true) + [SetOperationMode(VelocityMode), TargetLatch, SetVelocity(cfg.velocity, true, false)];
    NoWriteCommands(tail);
    WritesAppend(head, tail);
    assert head[..0] == [];
    head + tail
  }

  /**
   * The approach of a direction motor: the limit readings are polled until
   * `detect_limit` reports the limit (which returns the axis to center) or
   * the 50-second timeout, i.e. the end of the readings. Other motor types
   * only wait.
   */
  function Approach(cfg: NoLoadConfig, limitReadings: seq<Sample>, center: CenterPolls): (r: seq<Command>)
    ensures forall i :: 0 <= i < |r| ==> r[i].SetVelocity?
    ensures r != [] ==> cfg.motorType == DirectionMotor && FirstLimit(limitReadings, cfg.currentCompare).Some?
    ensures cfg.motorType == DirectionMotor && FirstLimit(limitReadings, cfg.currentCompare).Some? ==>
      r == ReturnToCenter(cfg.velocity, DetectAndReturnMode, center.start, center.polls).cmds
  {
    if cfg.motorType == DirectionMotor then
      match FirstLimit(limitReadings, cfg.currentCompare)
      case Some(k) => DetectLimit(limitReadings[k], cfg.velocity, cfg.currentCompare, center).cmds
      case None => []
    else []
  }

  /** The commands issued after a successful characterization: restore the limit, apply the brake, disable the motor. */
  function NoLoadCleanup(cfg: NoLoadConfig): (r: seq<Command>)
    ensures Writes(r) == [(cfg.register, cfg.currentMax)]
    ensures r == [WriteRegister(cfg.register, cfg.currentMax), EnableBrake, MotorDisable]
  {
    var head := [WriteRegister(cfg.register, cfg.currentMax)];
    var tail := StartTest(false, false);
    NoWriteCommands(tail);
    WritesAppend(head, tail);
    assert head[..0] == [];
    head + tail
  }

  /**
   * The step around a given characterization run: setup and approach, the
   * run's commands, then the cleanup only when the run passed. A failing
   * velocity case raises out of the step, skipping the restoration of the
   * current limit.
   */
  function NoLoadStep(cfg: NoLoadConfig, limitReadings: seq<Sample>, center: CenterPolls,
                      run: VelocityRun): (r: StepResult)
    ensures r.outcome == run.outcome
    ensures r.cmds == NoLoadSetup(cfg) + Approach(cfg, limitReadings, center) + run.cmds
                      + (if run.outcome.Pass? then NoLoadCleanup(cfg) else [])
  {
    var setup := NoLoadSetup(cfg);
    var approach := Approach(cfg, limitReadings, center);
    var cleanup := if run.outcome.Pass? then NoLoadCleanup(cfg) else [];
    StepResult(setup + approach + run.cmds + cleanup, run.outcome)
  }

  /** The whole step, around the velocity characterization of the given cases. */
  function TestMotorNoLoad(cfg: NoLoadConfig, limitReadings: seq<Sample>, center: CenterPolls,
                           cases: seq<VelocityCase>): (r: StepResult)
    ensures r.outcome == TestVelocity(cfg.limits, cfg.motorType, cases).outcome
    ensures var run := TestVelocity(cfg.limits, cfg.motorType, cases);
      r.cmds == NoLoadSetup(cfg) + Approach(cfg, limitReadings, center) + run.cmds
                + (if run.outcome.Pass? then NoLoadCleanup(cfg) else [])
  {
    NoLoadStep(cfg, limitReadings, center, TestVelocity(cfg.limits, cfg.motorType, cases))
  }

  /**
   * The only current limits the step writes are the protective one, first,
   * and the original one, restored exactly when every velocity case passed.
   */
  lemma NoLoadStepWrites(cfg: NoLoadConfig, limitReadings: seq<Sample>, center: CenterPolls, run: VelocityRun)
    requires Writes(run.cmds) == []
    ensures var r := NoLoadStep(cfg, limitReadings, center, run);
      Writes(r.cmds) == [(cfg.register, cfg.protectiveLimit)]
                        + (if r.outcome.Pass? then [(cfg.register, cfg.currentMax)] else [])
  {
    var setup := NoLoadSetup(cfg);
    var approach := Approach(cfg, limitReadings, center);
    var cleanup := if run.outcome.Pass? then NoLoadCleanup(cfg) else [];
    var protective := [(cfg.register, cfg.protectiveLimit)];
    NoWriteCommands(approach);
    WritesAppend(setup, approach);
    assert Writes(setup + approach) == protective;
    WritesAppend(setup + approach, run.cmds);
    var body := setup + approach + run.cmds;
    assert Writes(body) == protective;
    WritesAppend(body, cleanup);
    assert Writes(cleanup) == if run.outcome.Pass? then [(cfg.register, cfg.currentMax)] else [];
    assert NoLoadStep(cfg, limitReadings, center, run).cmds == body + cleanup;
  }

  lemma NoLoadRestoresLimitOnlyOnPass(cfg: NoLoadConfig, limitReadings: seq<Sample>, center: CenterPolls,
                                      cases: seq<VelocityCase>)
    ensures var r := TestMotorNoLoad(cfg, limitReadings, center, cases);
      Writes(r.cmds) == [(cfg.register, cfg.protectiveLimit)]
                        + (if r.outcome.Pass? then [(cfg.register, cfg.currentMax)] else [])
  {
    TestVelocityWritesNothing(cfg.limits, cfg.motorType, cases);
    NoLoadStepWrites(cfg, limitReadings, center, TestVelocity(cfg.limits, cfg.motorType, cases));
  }
}

=== FILE: orchestrator.dfy ===
/**
 * `run_motor_tests`: the per-drive sequence of steps. Steps run in a fixed
 * order, optional ones gated by flags; the first step that raises ends the
 * sequence, its fault is caught and logged, and the drive is disconnected on
 * every path.
 */
module Orchestrator {
  import opened Basics
  import opened Drive
  import opened Checks
  import opened Centering
  import opened Velocity
  import opened NoLoad

  /** The steps of one drive's bench test. */
  datatype Step =
    | Connection
    | VoltageCheck
    | SafetyTest
    | EncoderCheck
    | PhasingTest
    | BrakeTest
    | NoLoadTest
    | PositionReport

  /** Which optional steps a run includes. */
  datatype Flags = Flags(doPhasing: bool, doBrakeTest: bool, doNoLoadTest: bool)

  /** Position of each step in the fixed order. */
  function Rank(s: Step): nat
  {
    match s
    case Connection => 0
    case VoltageCheck => 1
    case SafetyTest => 2
    case EncoderCheck => 3
    case PhasingTest => 4
    case BrakeTest => 5
    case NoLoadTest => 6
    case PositionReport => 7
  }

  /** Whether a run with these flags includes step `s`. */
  predicate Enabled(flags: Flags, s: Step)
  {
    match s
    case EncoderCheck | PhasingTest => flags.doPhasing
    case BrakeTest => flags.doBrakeTest
    case NoLoadTest => flags.doNoLoadTest
    case _ => true
  }

  /** The steps a run attempts when none of them fails. */
  function Plan(flags: Flags): (p: seq<Step>)
    ensures |p| >= 4 && p[..3] == [Connection, VoltageCheck, SafetyTest] && p[|p| - 1] == PositionReport
  {
    [Connection, VoltageCheck, SafetyTest]
    + ((if flags.doPhasing then [EncoderCheck, PhasingTest] else [])
       + ((if flags.doBrakeTest then [BrakeTest] else [])
          + ((if flags.doNoLoadTest then [NoLoadTest] else [])
             + [PositionReport])))
  }

  /** Every step, in the fixed order. */
  const StepOrder: seq<Step> :=
    [Connection, VoltageCheck, SafetyTest, EncoderCheck, PhasingTest, BrakeTest, NoLoadTest, PositionReport]

  /** The enabled steps of `steps`, in their order there. */
  function Keep(flags: Flags, steps: seq<Step>): (r: seq<Step>)
    ensures |r| <= |steps|
  {
    if steps == [] then []
    else (if Enabled(flags, steps[0]) then [steps[0]] else []) + Keep(flags, steps[1..])
  }

  /** Steps in strictly increasing rank, hence each at most once. */
  predicate Ascending(p: seq<Step>)
  {
    forall i, j :: 0 <= i < j < |p| ==> Rank(p[i]) < Rank(p[j])
  }

  /** The filtered order from the brake test on: the optional brake and no-load tests, then the position report. */
  lemma {:induction false} KeepFromBrakeTest(flags: Flags)
    ensures Keep(flags, StepOrder[5..]) ==
      (if flags.doBrakeTest then [BrakeTest] else [])
      + ((if flags.doNoLoadTest then [NoLoadTest] else []) + [PositionReport])
  {
    var s := StepOrder;
    assert Keep(flags, s[8..]) == [];
    assert Keep(flags, s[7..]) == [PositionReport] by { assert s[7..][1..] == s[8..]; }
    assert Keep(flags, s[6..]) == (if flags.doNoLoadTest then [NoLoadTest] else []) + [PositionReport]
      by { assert s[6..][1..] == s[7..]; }
    assert Keep(flags, s[5..]) == (if flags.doBrakeTest then [BrakeTest] else []) + Keep(flags, s[6..])
      by { assert s[5..][1..] == s[6..]; }
  }

  /** The plan is the fixed order of steps with the disabled ones left out. */
  lemma {:induction false} PlanIsFilteredOrder(flags: Flags)
    ensures Plan(flags) == Keep(flags, StepOrder)
  {
    var s := StepOrder;
    KeepFromBrakeTest(flags);
    assert Keep(flags, s[4..]) == (if flags.doPhasing then [PhasingTest] else []) + Keep(flags, s[5..])
      by { assert s[4..][1..] == s[5..]; }
    var rest := Keep(flags, s[5..]);
    assert Keep(flags, s[3..]) == (if flags.doPhasing then [EncoderCheck, PhasingTest] else []) + rest by {
      assert s[3..][1..] == s[4..];
      if flags.doPhasing {
        assert [EncoderCheck] + ([PhasingTest] + rest) == [EncoderCheck, PhasingTest] + rest;
      }
    }
    var tail := Keep(flags, s[3..]);
    assert Keep(flags, s[2..]) == [SafetyTest] + tail by { assert s[2..][1..] == s[3..]; }
    assert Keep(flags, s[1..]) == [VoltageCheck] + ([SafetyTest] + tail) by { assert s[1..][1..] == s[2..]; }
    assert Keep(flags, s) == [Connection, VoltageCheck, SafetyTest] + tail by {
      assert [Connection] + ([VoltageCheck] + ([SafetyTest] + tail)) == [Connection, VoltageCheck, SafetyTest] + tail;
    }
  }

  /** A step survives the filter exactly when it was there and is enabled. */
  lemma {:induction false} KeepMembers(flags: Flags, steps: seq<Step>, x: Step)
    ensures x in Keep(flags, steps) <==> x in steps && Enabled(flags, x)
    decreases |steps|
  {
    if steps != [] {
      KeepMembers(flags, steps[1..], x);
      assert steps == [steps[0]] + steps[1..];
    }
  }

  /** Filtering keeps steps in ascending order. */
  lemma {:induction false} KeepAscending(flags: Flags, steps: seq<Step>)
    requires Ascending(steps)
    ensures Ascending(Keep(flags, steps))
    decreases |steps|
  {
    if steps != [] {
      var rest := steps[1..];
      assert Ascending(rest) by {
        assert forall i :: 0 <= i < |rest| ==> rest[i] == steps[i + 1];
      }
      KeepAscending(flags, rest);
      var tail := Keep(flags, rest);
      forall y | y in tail
        ensures Rank(steps[0]) < Rank(y)
      {
        KeepMembers(flags, rest, y);
        var j :| 0 <= j < |rest| && rest[j] == y;
        assert steps[j + 1] == y;
      }
      var r := Keep(flags, steps);
      if Enabled(flags, steps[0]) {
        assert r == [steps[0]] + tail;
        forall i, j | 0 <= i < j < |r|
          ensures Rank(r[i]) < Rank(r[j])
        {
          assert r[j] == tail[j - 1] && r[j] in tail;
          if i > 0 {
            assert r[i] == tail[i - 1];
          }
        }
      } else {
        assert r == tail;
      }
    }
  }

  /** The fixed order is ascending by rank. */
  lemma StepOrderAscending()
    ensures Ascending(StepOrder)
  {
    assert forall i :: 0 <= i < |StepOrder| ==> Rank(StepOrder[i]) == i;
  }

  /** The plan holds exactly the enabled steps. */
  lemma PlanMembers(flags: Flags)
    ensures forall s :: s in Plan(flags) <==> Enabled(flags, s)
  {
    PlanIsFilteredOrder(flags);
    forall s
      ensures s in Plan(flags) <==> Enabled(flags, s)
    {
      KeepMembers(flags, StepOrder, s);
      assert s == StepOrder[Rank(s)];
    }
  }

  /**
   * The plan holds each step at most once, in the fixed order: optional steps
   * never change the order of the others.
   */
  lemma PlanOrder(flags: Flags)
    ensures Ascending(Plan(flags))
  {
    PlanIsFilteredOrder(flags);
    StepOrderAscending();
    KeepAscending(flags, StepOrder);
  }

  /** The commands of a sequence of steps, one after the other. */
  function TraceOf(steps: seq<Step>, exec: Step -> StepResult): seq<Command>
  {
    if steps == [] then [] else exec(steps[0]).cmds + TraceOf(steps[1..], exec)
  }

  /** How far a sequence of steps got: how many steps were attempted, the commands issued and the fault caught, if any. */
  datatype Attempt = Attempt(attempted: nat, cmds: seq<Command>, caught: Option<Fault>)

  /** The first `k` steps of `plan` all pass. */
  predicate PassingUpTo(plan: seq<Step>, k: nat, exec: Step -> StepResult)
    requires k <= |plan|
  {
    forall i :: 0 <= i < k ==> exec(plan[i]).outcome.Pass?
  }

  /**
   * The body of the `try` block: run the steps in order until one raises.
   * `exec` gives each step's commands and outcome, so any exception a step
   * can raise, the SDK's included, is a `Fail` here.
   */
  function RunSteps(plan: seq<Step>, exec: Step -> StepResult): (r: Attempt)
    ensures r.attempted <= |plan|
    ensures r.cmds == TraceOf(plan[..r.attempted], exec)
    ensures r.caught.None? ==> r.attempted == |plan| && PassingUpTo(plan, |plan|, exec)
    ensures r.caught.Some? ==>
      && r.attempted > 0 && PassingUpTo(plan, r.attempted - 1, exec)
      && exec(plan[r.attempted - 1]).outcome == Fail(r.caught.value)
  {
    if plan == [] then Attempt(0, [], None)
    else
      var first := exec(plan[0]);
      if first.outcome.Fail? then
        assert plan[..1][1..] == [];
        Attempt(1, first.cmds, Some(first.outcome.fault))
      else
        var rest := RunSteps(plan[1..], exec);
        var k := if rest.caught.None? then rest.attempted else rest.attempted - 1;
        assert PassingUpTo(plan[1..], k, exec) ==> PassingUpTo(plan, k + 1, exec) by {
          assert forall i :: 1 <= i < |plan| ==> plan[i] == plan[1..][i - 1];
        }
        assert plan[..rest.attempted + 1][1..] == plan[1..][..rest.attempted];
        Attempt(rest.attempted + 1, first.cmds + rest.cmds, rest.caught)
  }

  /** The attempt completes exactly when every planned step passes. */
  lemma RunStepsCompletesIffAllPass(plan: seq<Step>, exec: Step -> StepResult)
    ensures RunSteps(plan, exec).caught.None? <==> PassingUpTo(plan, |plan|, exec)
  {
  }

  /** The `finally` block, `disconnect`: release the brake, disable the motor, disconnect. */
  function DisconnectCommands(): (r: seq<Command>)
    ensures r == [ReleaseBrake, MotorDisable, Disconnect]
  {
    StartTest(false, true) + [Disconnect]
  }

  /** What one drive's run did: the attempt, then the disconnection. */
  datatype DriveRun = DriveRun(steps: seq<Step>, cmds: seq<Command>, caught: Option<Fault>)

  /**
   * `run_motor_tests`: attempt the planned steps; whatever happens, the fault
   * (if any) is caught and the drive is disconnected last.
   */
  function RunMotorTests(flags: Flags, exec: Step -> StepResult): (r: DriveRun)
    ensures |r.steps| <= |Plan(flags)| && r.steps == Plan(flags)[..|r.steps|]
    ensures r.caught.None? ==> r.steps == Plan(flags) && PassingUpTo(Plan(flags), |Plan(flags)|, exec)
    ensures r.caught.Some? ==>
      && |r.steps| > 0 && PassingUpTo(Plan(flags), |r.steps| - 1, exec)
      && exec(r.steps[|r.steps| - 1]).outcome == Fail(r.caught.value)
    ensures r.cmds == TraceOf(r.steps, exec) + DisconnectCommands()
  {
    var attempt := RunSteps(Plan(flags), exec);
    DriveRun(Plan(flags)[..attempt.attempted], attempt.cmds + DisconnectCommands(), attempt.caught)
  }

  /** A run ends without a caught fault exactly when every step of the plan passes. */
  lemma RunCompletesIffAllPass(flags: Flags, exec: Step -> StepResult)
    ensures RunMotorTests(flags, exec).caught.None? <==> forall s :: s in Plan(flags) ==> exec(s).outcome.Pass?
  {
    RunStepsCompletesIffAllPass(Plan(flags), exec);
  }

  /** In any plan, a step that raises ends the attempt: no later step is attempted. */
  lemma {:induction false} StopsAtFailure(plan: seq<Step>, exec: Step -> StepResult, k: nat)
    requires k < |plan| && exec(plan[k]).outcome.Fail?
    ensures RunSteps(plan, exec).attempted <= k + 1
    ensures RunSteps(plan, exec).caught.Some?
    decreases k
  {
    if exec(plan[0]).outcome.Pass? {
      assert k > 0 && plan[1..][k - 1] == plan[k];
      StopsAtFailure(plan[1..], exec, k - 1);
    }
  }

  /** A step that raises ends the run: no step after it in the plan is attempted. */
  lemma FailureSkipsLaterSteps(flags: Flags, exec: Step -> StepResult, k: nat)
    requires k < |Plan(flags)| && exec(Plan(flags)[k]).outcome.Fail?
    ensures |RunMotorTests(flags, exec).steps| <= k + 1
    ensures RunMotorTests(flags, exec).caught.Some?
  {
    StopsAtFailure(Plan(flags), exec, k);
  }

  /** The per-drive parameters of `run_motor_tests`. */
  datatype DriveConfig = DriveConfig(
    slaveId: int,
    register: string,          // current-limit register
    protectiveLimit: real,     // current limit during brake and no-load tests
    currentMax: real,          // current limit restored afterwards
    velocity: real,            // brake-test and no-load velocity
    currentCompare: real,
    motorType: string,
    limits: Limits,
    flags: Flags)

  /** What the drive reports during one run, step by step. */
  datatype Bench = Bench(
    connected: bool,                // the SDK connection succeeds
    voltage: Option<real>,          // the bus-voltage register, if readable
    sto: Diagnostic,
    encoder: Diagnostic,
    commutation: Diagnostic,
    phasing: Diagnostic,
    brakeReading: Sample,           // velocity and current after the brake-test wait
    limitReadings: seq<Sample>,     // no-load polls before the limit-search timeout
    limitCenter: CenterPolls,       // positions seen by the return from the limit
    cases: seq<VelocityCase>)       // the velocity table with each case's telemetry

  /** Each step as the harness runs it, on the drive described by `bench`. */
  function ExecStep(cfg: DriveConfig, bench: Bench, s: Step): (r: StepResult)
    ensures s == Connection ==> (r.outcome.Pass? <==> bench.connected)
    ensures s == Connection ==> r.cmds == [Connect(cfg.slaveId)] && (r.outcome.Fail? ==> r.outcome.fault == ConnectFailed)
    ensures s == VoltageCheck ==> r == VoltageStep(bench.voltage)
    ensures s == SafetyTest ==> r == SafetyChecker(bench.sto)
    ensures s == EncoderCheck ==> r == CheckEncoderConfiguration(bench.encoder)
    ensures s == PhasingTest ==>
      var inner := CommutationAndPhasing(bench.commutation, bench.phasing);
      r.cmds == [ReleaseBrake, MotorDisable] + inner.cmds && r.outcome == inner.outcome
    ensures s == BrakeTest ==>
      r == TestBrake(cfg.register, cfg.protectiveLimit, cfg.velocity, cfg.currentMax,
                     bench.brakeReading.velocity, bench.brakeReading.current)
    ensures s == NoLoadTest ==>
      r == TestMotorNoLoad(NoLoadConfig(cfg.register, cfg.protectiveLimit, cfg.currentMax, cfg.velocity,
                                        cfg.currentCompare, cfg.motorType, cfg.limits),
                           bench.limitReadings, bench.limitCenter, bench.cases)
    ensures s == PositionReport ==> r == StepResult([], Pass)
  {
    match s
    case Connection =>
      StepResult([Connect(cfg.slaveId)], if bench.connected then Pass else Fail(ConnectFailed))
    case VoltageCheck => VoltageStep(bench.voltage)
    case SafetyTest => SafetyChecker(bench.sto)
    case EncoderCheck => CheckEncoderConfiguration(bench.encoder)
    case PhasingTest =>
      var inner := CommutationAndPhasing(bench.commutation, bench.phasing);
      StepResult(StartTest(false, true) + inner.cmds, inner.outcome)
    case BrakeTest =>
      TestBrake(cfg.register, cfg.protectiveLimit, cfg.velocity, cfg.currentMax,
                bench.brakeReading.velocity, bench.brakeReading.current)
    case NoLoadTest =>
      var noLoad := NoLoadConfig(cfg.register, cfg.protectiveLimit, cfg.currentMax, cfg.velocity,
                                 cfg.currentCompare, cfg.motorType, cfg.limits);
      TestMotorNoLoad(noLoad, bench.limitReadings, bench.limitCenter, bench.cases)
    case PositionReport => StepResult([], Pass)
  }

  /** One drive's run against the drive described by `bench`. */
  function RunDrive(cfg: DriveConfig, bench: Bench): (r: DriveRun)
    ensures |r.steps| > 0 && r.steps[0] == Connection
    ensures |r.cmds| >= 4 && r.cmds[0] == Connect(cfg.slaveId)
    ensures r.cmds[|r.cmds| - 3..] == DisconnectCommands()
  {
    RunMotorTests(cfg.flags, s => ExecStep(cfg, bench, s))
  }

  /**
   * A connected drive whose bus voltage reads below 46 V is disconnected right
   * after the voltage check, with the measured value in the caught fault.
   */
  lemma LowVoltageStopsRun(cfg: DriveConfig, bench: Bench)
    requires bench.connected && bench.voltage.Some? && bench.voltage.value < MinBusVoltage
    ensures var r := RunDrive(cfg, bench);
      && r.steps == [Connection, VoltageCheck]
      && r.caught == Some(InvalidVoltage(bench.voltage.value))
      && r.cmds == [Connect(cfg.slaveId)] + DisconnectCommands()
  {
    var exec := s => ExecStep(cfg, bench, s);
    var plan := Plan(cfg.flags);
    FailureSkipsLaterSteps(cfg.flags, exec, 1);
    var r := RunMotorTests(cfg.flags, exec);
    assert r.steps[..2] == plan[..2];
    assert TraceOf(r.steps, exec) == [Connect(cfg.slaveId)] by {
      assert r.steps[1..] == [VoltageCheck];
      assert r.steps[1..][1..] == [];
    }
  }

  /** A drive whose voltage cannot be read never has its voltage validated: the run stops at the read. */
  lemma UnreadableVoltageStopsRun(cfg: DriveConfig, bench: Bench)
    requires bench.connected && bench.voltage.None?
    ensures var r := RunDrive(cfg, bench);
      r.steps == [Connection, VoltageCheck] && r.caught == Some(VoltageUnreadable)
  {
    var exec := s => ExecStep(cfg, bench, s);
    var plan := Plan(cfg.flags);
    FailureSkipsLaterSteps(cfg.flags, exec, 1);
    var r := RunMotorTests(cfg.flags, exec);
    assert r.steps[..2] == plan[..2];
  }

  /** The phasing step runs the phasing check only if the commutation test passed. */
  lemma PhasingAfterCommutation(cfg: DriveConfig, bench: Bench)
    ensures PhasingCheck in ExecStep(cfg, bench, PhasingTest).cmds <==> bench.commutation.severity == 0
  {
    var inner := CommutationAndPhasing(bench.commutation, bench.phasing);
    assert PhasingCheck !in StartTest(false, true);
  }
}

=== FILE: velocity.dfy ===
/**
 * The velocity/current characterization of `test_velocity`: for each case of
 * the velocity table, average the sampled velocity and current and require
 * both averages strictly inside tolerance bands of 10% of a reference value.
 */
module Velocity {
  import opened Basics
  import opened Drive
  import opened Centering

  /** The motor type whose cases end with a return to center. */
  const DirectionMotor: string := "direction"

  /** Sum of a sequence of readings, accumulated front to back. */
  function Sum(xs: seq<real>): real
  {
    if xs == [] then 0.0 else Sum(xs[..|xs| - 1]) + xs[|xs| - 1]
  }

  /** Mean of the readings; 0 when there is none. */
  function Average(xs: seq<real>): (a: real)
    ensures |xs| > 0 ==> a * |xs| as real == Sum(xs)
    ensures |xs| == 0 ==> a == 0.0
  {
    if |xs| > 0 then Sum(xs) / |xs| as real else 0.0
  }

  function Velocities(samples: seq<Sample>): (r: seq<real>)
    ensures |r| == |samples| && forall i :: 0 <= i < |r| ==> r[i] == samples[i].velocity
  {
    seq(|samples|, i requires 0 <= i < |samples| => samples[i].velocity)
  }

  function Currents(samples: seq<Sample>): (r: seq<real>)
    ensures |r| == |samples| && forall i :: 0 <= i < |r| ==> r[i] == samples[i].current
  {
    seq(|samples|, i requires 0 <= i < |samples| => samples[i].current)
  }

  /** The sum of readings strictly inside (lo, hi) lies strictly between n·lo and n·hi. */
  lemma {:induction false} SumBounds(xs: seq<real>, lo: real, hi: real)
    requires |xs| > 0
    requires forall i :: 0 <= i < |xs| ==> lo < xs[i] < hi
    ensures |xs| as real * lo < Sum(xs) < |xs| as real * hi
    decreases |xs|
  {
    var init := xs[..|xs| - 1];
    if init != [] {
      assert forall i :: 0 <= i < |init| ==> init[i] == xs[i];
      SumBounds(init, lo, hi);
    }
  }

  /** If every sample is strictly inside (lo, hi), so is their average. */
  lemma AverageWithin(xs: seq<real>, lo: real, hi: real)
    requires |xs| > 0
    requires forall i :: 0 <= i < |xs| ==> lo < xs[i] < hi
    ensures lo < Average(xs) < hi
  {
    SumBounds(xs, lo, hi);
    var n := |xs| as real;
    var a := Average(xs);
    assert lo * n < a * n < hi * n;
    CancelPositive(lo, a, n);
    CancelPositive(a, hi, n);
  }

  /** Strict inequality survives dividing both sides by the same positive factor. */
  lemma CancelPositive(x: real, y: real, n: real)
    requires n > 0.0 && x * n < y * n
    ensures x < y
  {
  }

  /**
   * The sampling loop of `test_velocity`: accumulate totals and a count over
   * the samples taken, then divide, falling back to 0 when nothing was sampled.
   */
  method MeasureAverages(samples: seq<Sample>) returns (velocityAvg: real, currentAvg: real)
    ensures velocityAvg == Average(Velocities(samples))
    ensures currentAvg == Average(Currents(samples))
  {
    var velocityTotal := 0.0;
    var currentTotal := 0.0;
    var count := 0;
    while count < |samples|
      invariant 0 <= count <= |samples|
      invariant velocityTotal == Sum(Velocities(samples)[..count])
      invariant currentTotal == Sum(Currents(samples)[..count])
    {
      assert Velocities(samples)[..count + 1][..count] == Velocities(samples)[..count];
      assert Currents(samples)[..count + 1][..count] == Currents(samples)[..count];
      velocityTotal := velocityTotal + samples[count].velocity;
      currentTotal := currentTotal + samples[count].current;
      count := count + 1;
    }
    assert Velocities(samples)[..count] == Velocities(samples);
    assert Currents(samples)[..count] == Currents(samples);
    velocityAvg := if count > 0 then velocityTotal / count as real else 0.0;
    currentAvg := if count > 0 then currentTotal / count as real else 0.0;
  }

  /** An open interval (lo, hi): a value on either bound is outside. */
  datatype Band = Band(lo: real, hi: real) {
    predicate Contains(x: real) {
      lo < x < hi
    }
  }

  /** The band of ±10% of `reference` around `center`: every band's half-width is a tenth of its reference value. */
  function ToleranceBand(center: real, reference: real): (b: Band)
    ensures b.hi - center == center - b.lo == 0.1 * reference
  {
    Band(center - 0.1 * reference, center + 0.1 * reference)
  }

  /** Being inside a tolerance band means being closer to its center than 10% of the reference. */
  lemma ToleranceBandDistance(x: real, center: real, reference: real)
    ensures ToleranceBand(center, reference).Contains(x) <==> Abs(x - center) < 0.1 * reference
  {
  }

  /** A tolerance band admits some value exactly when its reference is positive. */
  lemma ToleranceBandNonEmpty(center: real, reference: real)
    ensures ToleranceBand(center, reference).Contains(center) <==> reference > 0.0
  {
  }

  /**
   * One entry of the velocity table (name and target velocity) together with
   * what the drive reports while that case runs.
   */
  datatype VelocityCase = VelocityCase(name: string, velocity: real, samples: seq<Sample>, center: CenterPolls)

  /** The reference values `test_velocity` judges against. */
  datatype Limits = Limits(velocityMax: real, specifiedCurrent: real, nominalCurrent: real)

  /**
   * The verdict on one case: velocity is checked first, then current; each
   * average must lie strictly inside its band.
   */
  function CaseVerdict(limits: Limits, c: VelocityCase): (r: Outcome<Fault>)
    ensures var v := Average(Velocities(c.samples));
      var i := Average(Currents(c.samples));
      && (r.Pass? <==> (Abs(v - c.velocity) < 0.1 * limits.velocityMax
                        && Abs(i - limits.specifiedCurrent) < 0.1 * limits.nominalCurrent))
      && (r.Fail? ==> r.fault in {VelocityOutOfBand(c.name), CurrentOutOfBand(c.name)})
      && (r == Fail(CurrentOutOfBand(c.name)) ==> Abs(v - c.velocity) < 0.1 * limits.velocityMax)
      && (r.Fail? ==> (r.fault == VelocityOutOfBand(c.name) <==> Abs(v - c.velocity) >= 0.1 * limits.velocityMax))
  {
    var velocityAvg := Average(Velocities(c.samples));
    var currentAvg := Average(Currents(c.samples));
    ToleranceBandDistance(velocityAvg, c.velocity, limits.velocityMax);
    ToleranceBandDistance(currentAvg, limits.specifiedCurrent, limits.nominalCurrent);
    if !ToleranceBand(c.velocity, limits.velocityMax).Contains(velocityAvg) then
      Fail(VelocityOutOfBand(c.name))
    else if !ToleranceBand(limits.specifiedCurrent, limits.nominalCurrent).Contains(currentAvg) then
      Fail(CurrentOutOfBand(c.name))
    else
      Pass
  }

  /** The commands one case issues before its readings are judged. */
  function CaseStart(c: VelocityCase): (r: seq<Command>)
    ensures |r| == 5 && forall i :: 0 <= i < |r| ==> !r[i].WriteRegister?
    ensures r[0] == ReleaseBrake && r[1] == MotorEnable
    ensures r[2] == SetOperationMode(VelocityMode) && r[3] == TargetLatch && r[4] == SetVelocity(c.velocity, true, false)
  {
    StartTest(true, true) + [SetOperationMode(VelocityMode), TargetLatch, SetVelocity(c.velocity, true, false)]
  }

  /** The commands a passing case issues afterwards: a return to center on a direction motor, then a stop. */
  function CaseFinish(motorType: string, c: VelocityCase): (r: seq<Command>)
    ensures forall i :: 0 <= i < |r| ==> r[i].SetVelocity?
    ensures |r| > 0 && r[|r| - 1] == SetVelocity(0.0, false, true)
    ensures motorType != DirectionMotor ==> |r| == 1
  {
    (if motorType == DirectionMotor
     then ReturnToCenter(c.velocity, ReturnMode, c.center.start, c.center.polls).cmds
     else [])
    + [SetVelocity(0.0, false, true)]
  }

  /** On a direction motor, everything before a passing case's final stop is its return to center in "return" mode. */
  lemma CaseFinishReturnsToCenter(motorType: string, c: VelocityCase)
    requires motorType == DirectionMotor
    ensures var r := CaseFinish(motorType, c);
      r[..|r| - 1] == ReturnToCenter(c.velocity, ReturnMode, c.center.start, c.center.polls).cmds
  {
    var centering := ReturnToCenter(c.velocity, ReturnMode, c.center.start, c.center.polls).cmds;
    assert (centering + [SetVelocity(0.0, false, true)])[..|centering|] == centering;
  }

  /** What `test_velocity` did: how many cases it started, the commands issued, how it ended. */
  datatype VelocityRun = VelocityRun(started: nat, cmds: seq<Command>, outcome: Outcome<Fault>)

  /** The first `k` cases of the table all pass `verdict`. */
  predicate PassedFirst(verdict: VelocityCase -> Outcome<Fault>, cases: seq<VelocityCase>, k: nat)
    requires k <= |cases|
  {
    forall i :: 0 <= i < k ==> verdict(cases[i]).Pass?
  }

  /**
   * The loop of `test_velocity` for any judgement of a case: run the cases in
   * table order; the first failing case raises and no later case is started.
   */
  function RunCases(motorType: string, cases: seq<VelocityCase>, verdict: VelocityCase -> Outcome<Fault>): (r: VelocityRun)
    ensures r.started <= |cases|
    ensures r.outcome.Pass? ==> r.started == |cases| && PassedFirst(verdict, cases, |cases|)
    ensures r.outcome.Fail? ==>
      && r.started > 0 && PassedFirst(verdict, cases, r.started - 1)
      && verdict(cases[r.started - 1]) == r.outcome
  {
    if cases == [] then VelocityRun(0, [], Pass)
    else
      var c := cases[0];
      if verdict(c).Fail? then VelocityRun(1, CaseStart(c), verdict(c))
      else
        var rest := RunCases(motorType, cases[1..], verdict);
        var k := if rest.outcome.Pass? then rest.started else rest.started - 1;
        assert PassedFirst(verdict, cases[1..], k) ==> PassedFirst(verdict, cases, k + 1) by {
          assert forall i :: 1 <= i < |cases| ==> cases[i] == cases[1..][i - 1];
        }
        VelocityRun(rest.started + 1, CaseStart(c) + CaseFinish(motorType, c) + rest.cmds, rest.outcome)
  }

  /** `test_velocity`: the loop over the table, each case judged by its averages. */
  function TestVelocity(limits: Limits, motorType: string, cases: seq<VelocityCase>): (r: VelocityRun)
    ensures r.started <= |cases|
    ensures r.outcome.Pass? ==> r.started == |cases|
    ensures r.outcome.Fail? ==>
      && r.started > 0 && CaseVerdict(limits, cases[r.started - 1]) == r.outcome
      && forall i :: 0 <= i < r.started - 1 ==> CaseVerdict(limits, cases[i]).Pass?
  {
    RunCases(motorType, cases, c => CaseVerdict(limits, c))
  }

  /** The characterization passes exactly when every case in the table passes. */
  lemma TestVelocityPassesIffAllPass(limits: Limits, motorType: string, cases: seq<VelocityCase>)
    ensures TestVelocity(limits, motorType, cases).outcome.Pass? <==>
      forall i :: 0 <= i < |cases| ==> CaseVerdict(limits, cases[i]).Pass?
  {
    var verdict := c => CaseVerdict(limits, c);
    var r := RunCases(motorType, cases, verdict);
    if r.outcome.Fail? {
      assert CaseVerdict(limits, cases[r.started - 1]).Fail?;
    } else {
      assert PassedFirst(verdict, cases, |cases|);
    }
  }

  /** A non-empty table opens with the first case's commands. */
  lemma TestVelocityOpens(limits: Limits, motorType: string, cases: seq<VelocityCase>)
    requires |cases| > 0
    ensures var r := TestVelocity(limits, motorType, cases);
      |r.cmds| >= 5 && r.cmds[..5] == CaseStart(cases[0])
  {
    var verdict := c => CaseVerdict(limits, c);
    var c := cases[0];
    if verdict(c).Pass? {
      var rest := RunCases(motorType, cases[1..], verdict);
      assert (CaseStart(c) + CaseFinish(motorType, c) + rest.cmds)[..5] == CaseStart(c);
    }
  }

  /** The case loop writes no register, whatever the verdicts. */
  lemma {:induction false} RunCasesWritesNothing(motorType: string, cases: seq<VelocityCase>,
                                                 verdict: VelocityCase -> Outcome<Fault>)
    ensures Writes(RunCases(motorType, cases, verdict).cmds) == []
    decreases |cases|
  {
    if cases != [] {
      var c := cases[0];
      NoWriteCommands(CaseStart(c));
      if verdict(c).Pass? {
        NoWriteCommands(CaseFinish(motorType, c));
        RunCasesWritesNothing(motorType, cases[1..], verdict);
        var rest := RunCases(motorType, cases[1..], verdict);
        WritesAppend(CaseStart(c), CaseFinish(motorType, c));
        WritesAppend(CaseStart(c) + CaseFinish(motorType, c), rest.cmds);
      }
    }
  }

  /** The commands of cases that all passed, one after the other: each case's opening, then its finish. */
  function PassedTrace(motorType: string, cases: seq<VelocityCase>): seq<Command>
  {
    if cases == [] then []
    else CaseStart(cases[0]) + CaseFinish(motorType, cases[0]) + PassedTrace(motorType, cases[1..])
  }

  /**
   * A failure at case `k + 1` of the rest of the table, seen from the whole
   * table: the first case's commands, then the rest's trace, is the trace of
   * the first `k + 1` cases followed by the failing case's opening.
   */
  lemma PassedTraceThenStart(motorType: string, cases: seq<VelocityCase>, k: nat)
    requires k + 1 < |cases|
    ensures CaseStart(cases[0]) + CaseFinish(motorType, cases[0])
              + (PassedTrace(motorType, cases[1..][..k]) + CaseStart(cases[1..][k]))
         == PassedTrace(motorType, cases[..k + 1]) + CaseStart(cases[k + 1])
  {
    assert cases[..k + 1][1..] == cases[1..][..k];
  }

  /**
   * The commands of the case loop: the full commands of every case that
   * passed, followed, after a failure, by the opening of the failing case.
   */
  lemma {:induction false} RunCasesTrace(motorType: string, cases: seq<VelocityCase>,
                                         verdict: VelocityCase -> Outcome<Fault>)
    ensures var r := RunCases(motorType, cases, verdict);
      r.outcome.Pass? ==> r.cmds == PassedTrace(motorType, cases)
    ensures var r := RunCases(motorType, cases, verdict);
      r.outcome.Fail? ==> r.cmds == PassedTrace(motorType, cases[..r.started - 1]) + CaseStart(cases[r.started - 1])
    decreases |cases|
  {
    if cases != [] {
      var c := cases[0];
      if verdict(c).Fail? {
        assert cases[..0] == [];
      } else {
        RunCasesTrace(motorType, cases[1..], verdict);
        var rest := RunCases(motorType, cases[1..], verdict);
        var head := CaseStart(c) + CaseFinish(motorType, c);
        assert RunCases(motorType, cases, verdict).cmds == head + rest.cmds;
        if rest.outcome.Fail? {
          PassedTraceThenStart(motorType, cases, rest.started - 1);
        }
      }
    }
  }

  /**
   * The commands of `test_velocity`: every passing case's opening and finish
   * in table order, and after a failure the failing case's opening last.
   */
  lemma TestVelocityTrace(limits: Limits, motorType: string, cases: seq<VelocityCase>)
    ensures var r := TestVelocity(limits, motorType, cases);
      r.outcome.Pass? ==> r.cmds == PassedTrace(motorType, cases)
    ensures var r := TestVelocity(limits, motorType, cases);
      r.outcome.Fail? ==> r.cmds == PassedTrace(motorType, cases[..r.started - 1]) + CaseStart(cases[r.started - 1])
  {
    RunCasesTrace(motorType, cases, c => CaseVerdict(limits, c));
  }

  /** The characterization writes no register. */
  lemma TestVelocityWritesNothing(limits: Limits, motorType: string, cases: seq<VelocityCase>)
    ensures Writes(TestVelocity(limits, motorType, cases).cmds) == []
  {
    RunCasesWritesNothing(motorType, cases, c => CaseVerdict(limits, c));
  }

  /** A case that sampled nothing is judged on averages of 0. */
  lemma NoSamplesJudgedAsZero(limits: Limits, c: VelocityCase)
    requires c.samples == []
    ensures CaseVerdict(limits, c).Pass? <==>
      ToleranceBand(c.velocity, limits.velocityMax).Contains(0.0)
      && ToleranceBand(limits.specifiedCurrent, limits.nominalCurrent).Contains(0.0)
  {
  }

  /** A case whose every sample lies strictly inside both bands passes. */
  lemma SamplesInsideBandsPass(limits: Limits, c: VelocityCase)
    requires |c.samples| > 0
    requires forall i :: 0 <= i < |c.samples| ==>
      ToleranceBand(c.velocity, limits.velocityMax).Contains(c.samples[i].velocity)
      && ToleranceBand(limits.specifiedCurrent, limits.nominalCurrent).Contains(c.samples[i].current)
    ensures CaseVerdict(limits, c).Pass?
  {
    var vb := ToleranceBand(c.velocity, limits.velocityMax);
    var cb := ToleranceBand(limits.specifiedCurrent, limits.nominalCurrent);
    AverageWithin(Velocities(c.samples), vb.lo, vb.hi);
    AverageWithin(Currents(c.samples), cb.lo, cb.hi);
    ToleranceBandDistance(Average(Velocities(c.samples)), c.velocity, limits.velocityMax);
    ToleranceBandDistance(Average(Currents(c.samples)), limits.specifiedCurrent, limits.nominalCurrent);
  }

  /** Target 10 with a maximum of 20 gives the band (8, 12): an average of 10.5 passes, 13 fails. */
  lemma VelocityBandExample()
    ensures ToleranceBand(10.0, 20.0) == Band(8.0, 12.0)
    ensures ToleranceBand(10.0, 20.0).Contains(10.5)
    ensures !ToleranceBand(10.0, 20.0).Contains(13.0)
    ensures !ToleranceBand(10.0, 20.0).Contains(12.0)
  {
  }
}
